=== FILE: README.md ===
# DevSonar core, modelled in Dafny

DevSonar watches a running application for errors and hands them to a
coding agent for repair. This project models its core as pure Dafny
functions and proves properties about them. The core is:

- **The Dart and Go stderr parsers.** Each one decides which stderr
  line opens an error block and which later lines continue it. It then
  turns the finished block into a parsed record: language, error type,
  message, stack and raw lines. Regular expressions are written out as
  predicates. A backtracking match is a bounded `exists`. A capture
  group is a search function whose contract states the match it picks:
  leftmost, then shortest for a lazy `.+?`, longest for a greedy `.+`.
  `.` excludes the JavaScript line terminators, and `\s` is the same
  set `trim()` removes.
- **The relay's `ErrorBuffer`.** Reports are debounced into batches. A
  batch goes to the remediation callback when the timer fires or the
  size limit is reached. Each message of a batch stays "in flight"
  until its batch settles. While it is in flight, further reports with
  that message only increase a skipped-duplicate count. The timer and
  the callback's `finally` are modelled as explicit events
  (`TimerFire`, `Settle`). One invariant, `ErrorBuffer.Valid`, is
  proved to be kept by every event.
- **The remediation client (`AIClient`).** It builds the prompt:
  header, one section per report, and fixed instructions. It also
  truncates stacks and escapes the prompt for the shell. The SDK path
  resumes the saved session and retries once in a new session after a
  failure. The CLI path passes `--resume <id>`.
- **The in-process `ErrorReporter`.** It fills in its configuration
  defaults and normalises an `Error` or a report into a report. It also
  has the module-level `initErrorReporter` / `getErrorReporter` /
  `reportError` accessors.
- **The demo backend's in-memory `TodoStore`.**

Files: `wrappers.dfy` (Option, Result), `text.dfy` (JavaScript string
behaviour: whitespace, `trim`, `indexOf`, `join`, decimal numbers),
`reports.dfy` (the report and parsed-error records, and stack
truncation), `dart_parser.dfy`, `go_parser.dfy`, `buffer.dfy`,
`ai_client.dfy`, `reporter.dfy`, `store.dfy`.

Conventions:
- JavaScript falsiness of an optional string is `Reports.Truthy`: an
  empty string behaves like a missing value.
- The clock, `NODE_ENV`, the session store's contents and how each agent
  call turns out are parameters.
- `ErrorReport.context` is carried as its `JSON.stringify(context, null, 2)`
  text. That text is the only form in which the core looks at it.

Two behaviours of the code are worth knowing before reading the model:

- **SDK retry.** After a failed SDK query, `sendViaSDK` reads the session
  id *after* the failure (packages/devsonar/src/server/ai-client.ts:76).
  The retry therefore also happens when a query that started without a
  session announced one and then failed. `AIClient.SendViaSdk` and
  `AIClient.FreshSessionFailureIsRetried` state this.
- **Dart banner closure.** The Dart banner block does not close after its
  closing rule; see Findings.

## Model

| member | source | states |
|---|---|---|
| Reports.TruncateStack | packages/devsonar/src/server/ai-client.ts:65-70 | a stack within the limit is kept whole; a longer one keeps exactly its first `maxStackLength` characters (none for a negative limit) followed by the truncation marker |
| Reports.TruncateStackBound | packages/devsonar/src/server/ai-client.ts:65-70 | with a non-negative limit the result is at most the limit plus the marker long and starts with the kept prefix of the original |
| DartParser.IsErrorStart | packages/devsonar/src/stderr/parsers/dart-parser.ts:6-20 | every line that opens a block is one that the continuation and parse rules handle (never an unrecognised kind); the unhandled-exception and hot-reload headers and every compiler diagnostic open a block |
| DartParser.StartLineKinds | packages/devsonar/src/stderr/parsers/dart-parser.ts:6-20 | the four opening shapes are mutually exclusive, and each is classified as its own block kind by the first-line tests of continuation and parsing |
| DartParser.BannerShape | packages/devsonar/src/stderr/parsers/dart-parser.ts:11 | a line is a framework banner exactly when it is a run of box characters, ` Exception caught by `, a non-empty library text without line breaks, a space and a run of box characters |
| DartParser.CaretLineIsTrimmedCarets | packages/devsonar/src/stderr/parsers/dart-parser.ts:49 | a line is a caret line exactly when, trimmed, it is one or more `^` |
| DartParser.IsContinuation | packages/devsonar/src/stderr/parsers/dart-parser.ts:22-57 | nothing continues an empty block or a block whose first line is of no known kind |
| DartParser.BlockGrows | packages/devsonar/src/stderr/parsers/dart-parser.ts:25-54 | a block grows by a line exactly when that line's per-kind rule accepts it: for a banner, any line but a second closing rule; for an unhandled exception, a frame, a `Receiver:`/`Tried calling:` line, any line while fewer than three are held, or a blank after a frame; for a compiler or hot-reload block, an indented line, a caret line, or a blank after a non-blank line |
| DartParser.BannerBlockOneSeparator | packages/devsonar/src/stderr/parsers/dart-parser.ts:25-33 | a banner block accumulated line by line contains at most one closing rule |
| DartParser.UnhandledBlockShape | packages/devsonar/src/stderr/parsers/dart-parser.ts:35-44 | after its first three lines an unhandled-exception block holds only stack frames, `Receiver:`/`Tried calling:` lines, and blank lines directly after a frame |
| DartParser.SnippetBlockShape | packages/devsonar/src/stderr/parsers/dart-parser.ts:46-54 | a compiler or hot-reload block continues only with indented lines, caret lines and a blank after a non-blank line, so it never holds two blank lines in a row |
| DartParser.Parse | packages/devsonar/src/stderr/parsers/dart-parser.ts:59-115 | parsing is total; it keeps the raw lines and their newline join as the stack; an unrecognised block is an `UnknownError` with no message, a compiler block a `CompileError` with a non-empty message, a hot-reload block `HotReloadRejected`, a banner block a `FlutterError (…)`, and an unhandled exception never has both type and message empty |
| DartParser.BannerLibraryRoundTrip | packages/devsonar/src/stderr/parsers/dart-parser.ts:67-71 | for a banner whose library text holds no ` ═`, the error type is `FlutterError (<library>)` with that library text |
| DartParser.BannerMessage | packages/devsonar/src/stderr/parsers/dart-parser.ts:73-82 | a banner block's message is the trimmed non-blank lines after the banner, up to the first closing rule or stack frame, joined by spaces |
| DartParser.UnhandledSplit | packages/devsonar/src/stderr/parsers/dart-parser.ts:84-95 | with a `": "` in the trimmed second line, type, `": "` and message put back together give that line and the type holds no `": "`; without one the line is the type (or `UnknownError` when blank) and the message is empty |
| DartParser.CompileRoundTrip | packages/devsonar/src/stderr/parsers/dart-parser.ts:96-101 | a diagnostic `<file>.dart:<line>:<col>: Error: <text>` with a space-free file and text on one line parses to a `CompileError` whose message is exactly the text |
| DartParser.CompileGroupIndexIsLargest | packages/devsonar/src/stderr/parsers/dart-parser.ts:99 | the backtracking `\S+` settles on the longest head that still leaves `: Error: <text>` to match; no longer one has a capture, and the match fails only when no position has one |
| DartParser.HotReloadMessageEmpty | packages/devsonar/src/stderr/parsers/dart-parser.ts:102-106 | a rejected hot reload has an empty message exactly when every line after the header is blank |
| DartParser.BannerSwallowsNextBanner | packages/devsonar/src/stderr/parsers/dart-parser.ts:25-33 | as written, once a banner block has its closing rule, the next Flutter error's banner line is still accepted as a continuation |
| DartParser.IsContinuationClosing | packages/devsonar/src/stderr/parsers/dart-parser.ts:25-33 | the intended rule accepts only lines the rule as written accepts; the two differ only on a non-rule line after a banner block has taken its closing rule, and once a banner block has its closing rule nothing more is accepted |
| DartParser.ClosingBannerEndsAtSeparator | packages/devsonar/src/stderr/parsers/dart-parser.ts:25-33 | under the intended rule a closing rule can only be a banner block's last line, and nothing continues the block after it |
| GoParser.ErrorStartShape | packages/devsonar/src/stderr/parsers/go-parser.ts:6-12 | a line opens a Go block exactly when it starts with `panic:` or has the form `<anything>http: panic serving <address>: <anything>` with a non-empty one-line address |
| GoParser.IsContinuation | packages/devsonar/src/stderr/parsers/go-parser.ts:14-21 | a `panic: ` line never continues a block, so a second panic opens its own block |
| GoParser.ContinuationIgnoresHistory | packages/devsonar/src/stderr/parsers/go-parser.ts:14-21 | whether a line continues a Go block does not depend on the lines before it |
| GoParser.ServingMatchFrom | packages/devsonar/src/stderr/parsers/go-parser.ts:29 | the match chosen is the leftmost position where the log marker has a full match and, there, the shortest address group followed by `: ` and a message character |
| GoParser.Parse | packages/devsonar/src/stderr/parsers/go-parser.ts:23-45 | every Go block is a `panic` of language `go` keeping its raw lines and their newline join as the stack; an empty block has no message, and the message never exceeds the first line |
| GoParser.ServingRoundTrip | packages/devsonar/src/stderr/parsers/go-parser.ts:29-31 | a recovered-panic log line `<lead>http: panic serving <addr>: <text>` opens a block whose message is exactly `<text>`, for a lead without `h`, an address without `": "` and one-line text |
| GoParser.PanicRoundTrip | packages/devsonar/src/stderr/parsers/go-parser.ts:32-33 | a line `panic: <text>` opens a block whose message is exactly `<text>`, unless the text itself holds a recovered-panic entry |
| GoParser.ServingWithoutText | packages/devsonar/src/stderr/parsers/go-parser.ts:10-36 | a log line ending right after `: ` opens a block but keeps the whole line as its message, because the message group needs a character |
| GoParser.PanicWithoutSpace | packages/devsonar/src/stderr/parsers/go-parser.ts:8-36 | `panic:` without a following space opens a block and keeps the whole line as its message |
| GoParser.GoPanicExample | packages/devsonar/src/stderr/parsers/go-parser.ts:6-36 | the typical five-line Go panic forms one block, and its message is the panic text |
| ErrorBuffer.Init | packages/devsonar/src/server/buffer.ts:4-19 | a new buffer is empty, has no timer and nothing in flight, and satisfies the invariant |
| ErrorBuffer.Add | packages/devsonar/src/server/buffer.ts:21-43 | an in-flight message only adds one to its skipped count; any other report is appended and, once the buffer holds `maxSize` reports, handed over at once as a batch, otherwise the timer is armed |
| ErrorBuffer.Flush | packages/devsonar/src/server/buffer.ts:45-70 | the timer is cleared; an empty buffer hands nothing over, a non-empty one becomes the next batch exactly as buffered, and its messages join the in-flight keys |
| ErrorBuffer.RegisterEntries | packages/devsonar/src/server/buffer.ts:58-67 | every message of a flushed batch is in flight with the flush time, no skipped duplicates and status `processing` |
| ErrorBuffer.RegisterLastWins | packages/devsonar/src/server/buffer.ts:59-67 | for a message repeated within one batch, the in-flight entry is the one built from its last report |
| ErrorBuffer.RegisterKeepsOthers | packages/devsonar/src/server/buffer.ts:59-67 | registering a batch leaves the entries of messages outside it untouched |
| ErrorBuffer.TimerFire | packages/devsonar/src/server/buffer.ts:40-42 | the debounce timeout hands over the whole buffer (if any) and leaves it empty with no timer |
| ErrorBuffer.Settle | packages/devsonar/src/server/buffer.ts:70-79 | when a batch settles, success or failure alike, exactly its messages leave the in-flight map, the other entries are unchanged and the batch is no longer pending |
| ErrorBuffer.InitValid | packages/devsonar/src/server/buffer.ts:4-19 | a new buffer satisfies the invariant: nothing buffered is in flight, in-flight keys are the messages of unsettled batches, batches are disjoint and non-empty, the timer is armed exactly when something is buffered, and the buffer is below its limit |
| ErrorBuffer.AddValid | packages/devsonar/src/server/buffer.ts:21-43 | adding a report keeps the invariant |
| ErrorBuffer.FlushValid | packages/devsonar/src/server/buffer.ts:45-70 | flushing gives a valid buffer from any buffer whose in-flight bookkeeping is consistent, even one at or over its limit |
| ErrorBuffer.TimerFireValid | packages/devsonar/src/server/buffer.ts:40-42 | the timeout keeps the invariant |
| ErrorBuffer.SettleValid | packages/devsonar/src/server/buffer.ts:70-79 | settling a batch keeps the invariant |
| ErrorBuffer.SizeBelowLimit | packages/devsonar/src/server/buffer.ts:82-84 | between events `size()` is always below a positive `maxSize` |
| ErrorBuffer.InFlightCountIsPendingMessages | packages/devsonar/src/server/buffer.ts:86-88 | `inFlightCount()` is the number of distinct messages across the unsettled batches |
| ErrorBuffer.SettledMessageIsBufferedAgain | packages/devsonar/src/server/buffer.ts:21-29 | once its batch has settled, a message is buffered again instead of being skipped |
| ErrorBuffer.AddAllKeepsDuplicates | packages/devsonar/src/server/buffer.ts:29-42 | reports whose messages are not in flight are all buffered in order, duplicates included, while the limit is not reached, and the timer ends armed |
| ErrorBuffer.DuplicatesBeforeFlushShareABatch | packages/devsonar/src/server/buffer.ts:29-42 | the same report added three times before the timeout reaches the callback three times, in one batch |
| ErrorBuffer.InFlightDuplicateIsSkipped | packages/devsonar/src/server/buffer.ts:22-27 | a report arriving while its message is in flight is not buffered or sent; its entry counts one skipped duplicate |
| ErrorBuffer.LimitTriggersFlush | packages/devsonar/src/server/buffer.ts:31-34 | the report that reaches the limit is handed over immediately with the buffered ones, leaving the buffer empty |
| AIClient.BuildPrompt | packages/devsonar/src/server/ai-client.ts:27-63 | the prompt starts with the header (count and timestamp), ends with the fixed instructions, and the first report's section directly follows the header |
| AIClient.PromptSectionsInOrder | packages/devsonar/src/server/ai-client.ts:31-60 | the prompt is the header, the sections of the earlier reports, the `k`-th report's section, those of the later ones, and the instructions |
| AIClient.FalsyFieldsAreLeftOut | packages/devsonar/src/server/ai-client.ts:38-50 | each field on its own: an empty source, an empty stack or an over-long context is rendered exactly as if that field were absent, whatever the other fields hold |
| AIClient.ShownStackIsBounded | packages/devsonar/src/server/ai-client.ts:41-43 | a shown stack is at most the limit plus the marker long and begins with the original's first `maxStackLength` characters |
| AIClient.SaveAll | packages/devsonar/src/server/ai-client.ts:103-105 | after a query the stored session is the last id its init messages announced, or is unchanged when there were none |
| AIClient.SendViaSdk | packages/devsonar/src/server/ai-client.ts:72-85 | there are one or two queries; a second one happens exactly when the first failed and a non-empty session is saved after it; it follows one reset, resumes nothing and uses the same prompt; the error of the last query propagates |
| AIClient.NoSessionNoRetry | packages/devsonar/src/server/ai-client.ts:76-83 | a first query that fails with no session before or during it is not retried, and its error propagates |
| AIClient.FreshSessionFailureIsRetried | packages/devsonar/src/server/ai-client.ts:74-80 | a query started without a session that announces one and then fails is retried in a new session |
| AIClient.ResumeFailureRetriesOnce | packages/devsonar/src/server/ai-client.ts:74-81 | a failed resumed query is retried exactly once, with the same prompt and no resume, and the retry's failure is the one reported |
| AIClient.Escape | packages/devsonar/src/server/ai-client.ts:124 | escaping never shortens the prompt and leaves a prompt without single quotes unchanged |
| AIClient.EscapeAppend | packages/devsonar/src/server/ai-client.ts:124 | escaping works character by character: escaping a concatenation concatenates the escapes |
| AIClient.ShellQuotingRoundTrip | packages/devsonar/src/server/ai-client.ts:124-126 | the shell reads the single-quoted escaped prompt back as exactly the prompt, for every prompt |
| AIClient.UnquotedSpecialIsRejected | packages/devsonar/src/server/ai-client.ts:124-126 | text with an unquoted blank or shell-special character before any quote or backslash is not one literal word |
| AIClient.UnescapedPromptIsNoWord | packages/devsonar/src/server/ai-client.ts:124-126 | the prompt left unescaped is never one literal word, since it opens with `#`; the escaping is what keeps it intact |
| AIClient.CliCommand | packages/devsonar/src/server/ai-client.ts:123-126 | the command echoes one shell word, with no unquoted blank or special character, that the shell reads back literally as exactly the prompt, piped into the CLI; it ends with `--resume <id>` for a saved non-empty session id and with the bare invocation otherwise |
| AIClient.SendDeliversPrompt | packages/devsonar/src/server/ai-client.ts:15-25 | in `sdk` mode the built prompt goes to one or two queries, the first resuming the saved session and a retry a new one; in any other mode it goes as the decoded word of the shell command, which resumes the saved session, keeps the store and fails when the command does |
| Reporter.Resolve | packages/error-reporter/src/reporter.ts:12-20 | resolved settings always have a non-empty relay URL and non-zero timeout and stack limit; `enabled` is as given, or true exactly in development |
| Reporter.ResolveIsIdempotent | packages/error-reporter/src/reporter.ts:12-20 | passing resolved settings back in gives the same settings, in any environment |
| Reporter.ResolveEachOption | packages/error-reporter/src/reporter.ts:13-18 | each option is settled independently of the others: a missing or falsy URL, timeout, stack limit or debug flag takes its default (`http://localhost:9100`, 1000, 2000, false), and a truthy one, negative numbers included, is kept |
| Reporter.Normalize | packages/error-reporter/src/reporter.ts:43-59 | a value that passes `isErrorReport` is returned as is; an `Error` becomes a report with its message, the given source, the current time, and its stack (empty when missing) truncated to the limit |
| Reporter.NormalizeIsIdempotent | packages/error-reporter/src/reporter.ts:43-46 | normalising a normalised report changes nothing |
| Reporter.ReportObjectIsNotTruncated | packages/error-reporter/src/reporter.ts:43-46 | a report object is posted with its stack as given, even beyond the limit |
| Reporter.NormalizedStackIsBounded | packages/error-reporter/src/reporter.ts:48-51 | an `Error`'s posted stack is at most the limit plus the marker long |
| Reporter.ReportPostsOnlyWhenEnabled | packages/error-reporter/src/reporter.ts:25-38 | after initialisation the helper posts, for any input, exactly when the resolved settings enable it: never with `enabled: false`, never outside development without an explicit `enabled`, and otherwise the value normalised with the resolved stack limit |
| Reporter.GetSeesLatestInit | packages/error-reporter/src/reporter.ts:99-112 | after two initialisations the getter returns the reporter of the second, configured from its options |
| Reporter.NothingBeforeInit | packages/error-reporter/src/reporter.ts:107-121 | before initialisation the getter fails and the helper posts nothing |
| TodoStore.Empty | apps/backend/src/store.ts:7-8 | a new store holds no todos, numbers from 1, and satisfies the store invariant |
| TodoStore.DeleteIsSeenByFind | apps/backend/src/store.ts:20-22 | after a deletion the id is not found and every other id is found as before |
| TodoStore.FindAllListsEveryTodo | apps/backend/src/store.ts:13-15 | `findAll()` lists every stored todo, each once |
| TodoStore.NextIdIsFresh | apps/backend/src/store.ts:27-28 | in a valid store the next id is not in use, so creation never overwrites a todo |
| TodoStore.CreateValid | apps/backend/src/store.ts:27-37 | creation keeps the store invariant: ids are decimal forms of handed-out numbers, each listed once in insertion order |
| TodoStore.CreatedIdsAreDistinct | apps/backend/src/store.ts:27-28 | two successive creations get different ids, the second being the next number |
| TodoStore.FirstIdsAreOneAndTwo | apps/backend/src/store.ts:8-28 | the first two todos of a new store get ids `"1"` and `"2"` |
| TodoStore.CreatedIsFound | apps/backend/src/store.ts:27-37 | a created todo is found under its id as created |
| TodoStore.MergeLaws | apps/backend/src/store.ts:48 | an update mentioning no field changes nothing, the same update applied twice acts once, and an update naming every field replaces the todo |
| TodoStore.UpdateIsSeenByFind | apps/backend/src/store.ts:42-51 | after an update, `findById` returns for that id what the update returned (nothing for an absent id), the same as before for any other id, and the listing order is kept |
| TodoStore.UpdateValid | apps/backend/src/store.ts:42-51 | updating keeps the store invariant |
| TodoStore.UpdateKeepsKey | apps/backend/src/store.ts:48-49 | an update that sets a different `id` changes the stored field but not the key it is stored under |
| TodoStore.Delete | apps/backend/src/store.ts:56-58 | deletion reports whether the id was present, and afterwards it is not |
| TodoStore.DeleteValid | apps/backend/src/store.ts:56-58 | deletion keeps the store invariant, the id also leaving the insertion order |
| TodoStore.DeleteTouchesNothingElse | apps/backend/src/store.ts:56-58 | deleting one id leaves every other todo as it was |

## Left out

- The segmentation engine that feeds lines to the parsers, and the parser registry, are not part of this model. The parsers are modelled as the three operations the engine calls.
- The SDK's message stream and the shell `exec` are not modelled. A query is described by the session ids its init messages carry and by whether it completed. A shell run is described by whether it exited normally. The 20 MiB output buffer, the 300 s timeout, `cwd`, `maxTurns` and the permission options are left out with them.
- The session manager is not part of this model. Its stored id is an `Option<string>`, and a reset is `None`.
- Logging (`console.log`, `console.warn`, `console.error`) is left out everywhere. This includes the assistant and result text of the SDK stream and the reporter's debug output.
- `sendToRelay` (the `fetch` POST, its abort timeout and its status check) is left out. `Reporter.Report` yields the report that would be posted.
- The relay's HTTP listener, `register`, the error-reporter middleware, the backend routes and process bootstrap are left out as I/O glue. So is the frontend.
- `AIClient.CliCommand` stops at the shell word: `Unquote` gives the argument the shell passes to `echo`. It refuses every unquoted blank and special character, including `#` and `~`, which the shell treats specially only at the start of a word, so it accepts fewer words than the shell reads literally, never more. The `echo` of some shells, such as dash as `/bin/sh`, expands backslash escapes like `\n` and `\c`, so the bytes the CLI reads on its input can differ from the prompt. `echo` itself and the pipe are not modelled.
- Debounce timing (`debounceMs`) is left out. The timer is a flag plus the `TimerFire` event, and concurrency is an explicit order of events.
- `JSON.stringify` of a report's context is left out. The context is carried as its serialised text.
- `Date.now()`, `new Date().toISOString()` and `process.env.NODE_ENV` are parameters.
- String lengths count characters, not UTF-16 code units. The `maxStackLength` cut and the 1000-character context limit differ from JavaScript only for text outside the Basic Multilingual Plane.
- A JSON update body carrying `null` or a wrongly typed field is not modelled. `TodoUpdate` fields are absent or well typed, since a parsed JSON body cannot carry `undefined`.
- The relay's `types.ts`, which defines the in-flight entry, is not part of this model. `ErrorBuffer.Entry` mirrors the fields `flush` writes.
- `ErrorBuffer.Register` states only which keys the in-flight map has. The entries themselves are stated by `RegisterEntries`, `RegisterLastWins` and `RegisterKeepsOthers`.
- `GoParser.Parse` states the record's fixed fields and a bound on the message. The exact message for each line shape is stated by `PanicRoundTrip`, `ServingRoundTrip`, `ServingWithoutText` and `PanicWithoutSpace`.
- `DartParser.Parse` states one fact per block kind. The exact type is stated for canonical banners (`BannerLibraryRoundTrip`); the exact message for banner blocks (`BannerMessage`), for the `": "` split of an unhandled exception (`UnhandledSplit`) and for canonical compiler diagnostics (`CompileRoundTrip`). For a rejected hot reload only when its message is empty is stated (`HotReloadMessageEmpty`).
- `DartParser.IsContinuation` states on its own only the cases where nothing continues. Both directions of the per-kind rules are stated by `BlockGrows`, and what whole blocks can hold by `BannerBlockOneSeparator`, `UnhandledBlockShape` and `SnippetBlockShape`.
- `AIClient.ResumeFailureRetriesOnce` assumes every id the failed query announced is non-empty. An empty announced id is falsy and leads to no retry; `SendViaSdk` states that case.
- Edge cases kept from the code:
  - A missing stack with a negative `maxStackLength` normalises to the bare truncation marker, because a negative limit is truthy and is kept.
  - An `Error` that carries a `timestamp` property passes `isErrorReport` and is returned unchanged; `AsReport` yields that object, not the body posted. `JSON.stringify` leaves out an `Error`'s non-enumerable `message` and `stack`, so the relay would receive neither; serialisation is not modelled.

## Findings

| source | as written | input that shows it | evidently intended | confidence | as-written member | corrected member |
|---|---|---|---|---|---|---|
| packages/devsonar/src/stderr/parsers/dart-parser.ts:25-33 | a banner block accepts every line that is not a closing rule, even after its closing rule; only a second rule is refused | block `["═══ Exception caught by widgets library ═══", "══════════"]` followed by `"═══ Exception caught by rendering library ═══"`: the second banner continues the first block instead of opening its own | the block ends with its first closing rule, which it takes as its last line | not executed | DartParser.BannerSwallowsNextBanner | DartParser.ClosingBannerEndsAtSeparator |

=== FILE: ai_client.dfy ===
/** The remediation client: it turns a batch of error reports into one
    prompt and hands it to a coding agent, either through the agent SDK
    (resuming the saved session, and retrying once in a new session when a
    resumed query fails) or through the command-line tool in a shell.

    The agent itself is outside the model. One SDK query is described by the
    session ids its `system`/`init` messages carry and by whether it
    completed; the shell command is described by whether it exited
    normally. The session store is an `Option<string>`, with `None` after a
    reset. */
module AIClient {
  import opened Wrappers
  import opened Text
  import opened Reports

  datatype Config = Config(claudeMode: string, maxStackLength: int)

  // ---------------------------------------------------------------- the prompt

  /** Serialised contexts shorter than this many characters are included. */
  const ContextLimit := 1000

  /** What one report's section shows: its number out of the batch size, the
      message, and the optional source, truncated stack and context. */
  datatype SectionPlan = SectionPlan(
    index: nat,
    total: nat,
    message: string,
    source: Option<string>,
    stack: Option<string>,
    context: Option<string>)

  /** The section for the report at position `i` of a batch of `n`: a falsy
      source or stack is left out, and so is a context whose serialisation
      is too long. */
  function Plan(e: ErrorReport, i: nat, n: nat, maxStackLength: int): (p: SectionPlan)
    ensures p.index == i + 1 && p.total == n && p.message == e.message
    ensures p.source.Some? <==> Truthy(e.source)
    ensures p.source.Some? ==> p.source == e.source
    ensures p.stack.Some? <==> Truthy(e.stack)
    ensures p.stack.Some? ==> p.stack.value == TruncateStack(e.stack.value, maxStackLength)
    ensures p.context.Some? <==> e.context.Some? && |e.context.value| < ContextLimit
    ensures p.context.Some? ==> p.context == e.context
  {
    SectionPlan(
      i + 1, n, e.message,
      if Truthy(e.source) then e.source else None,
      if Truthy(e.stack) then Some(TruncateStack(e.stack.value, maxStackLength)) else None,
      if e.context.Some? && |e.context.value| < ContextLimit then e.context else None)
  }

  /** One section per report, in batch order, numbered from 1. */
  function Plans(errors: seq<ErrorReport>, maxStackLength: int): (ps: seq<SectionPlan>)
    ensures |ps| == |errors|
    ensures forall i | 0 <= i < |ps| :: ps[i] == Plan(errors[i], i, |errors|, maxStackLength)
  {
    seq(|errors|, i requires 0 <= i < |errors| => Plan(errors[i], i, |errors|, maxStackLength))
  }

  function Header(n: nat, timestamp: string): string {
    "# ランタイムエラー検出 (" + DecimalString(n) + "件)\n\n"
    + "**タイムスタンプ**: " + timestamp + "\n\n"
    + "以下のエラーが検出されました。**プロジェクトのソースコードを参照して、原因を特定し、修正を行ってください。**\n\n"
  }

  function SectionHeading(p: SectionPlan): string {
    "## エラー " + DecimalString(p.index) + "/" + DecimalString(p.total) + "\n\n"
  }

  function Render(p: SectionPlan): string {
    SectionHeading(p)
    + "**メッセージ**: `" + p.message + "`\n\n"
    + (if p.source.Some? then "**発生元**: " + p.source.value + "\n\n" else "")
    + (if p.stack.Some? then "**スタックトレース**:\n```\n" + p.stack.value + "\n```\n\n" else "")
    + (if p.context.Some? then "**コンテキスト**:\n```json\n" + p.context.value + "\n```\n\n" else "")
    + "---\n\n"
  }

  /** The fixed instructions after the last section, ending with the ban on
      staging and committing. */
  const Footer :=
    "\n**次のアクションを実行してください**:\n\n"
    + "1. 各エラーのスタックトレースから発生箇所を特定\n"
    + "2. 該当するソースコードファイルを読み込む\n"
    + "3. エラーの根本原因を分析\n"
    + "4. 修正案を提示し、可能であればコードを修正\n"
    + "5. 修正が完了したら `git diff` を出力して変更内容を報告\n\n"
    + "**注意**: `git add` や `git commit` は絶対に実行しないでください。変更はステージングせず、差分の確認のみ行ってください。\n\n"

  function RenderAll(ps: seq<SectionPlan>): (r: string)
    ensures |ps| > 0 ==> StartsWith(r, Render(ps[0]))
  {
    if |ps| == 0 then "" else Render(ps[0]) + RenderAll(ps[1..])
  }

  /** `buildPrompt(errors)`; the clock reading is a parameter. */
  function BuildPrompt(errors: seq<ErrorReport>, timestamp: string, maxStackLength: int): (r: string)
    ensures StartsWith(r, Header(|errors|, timestamp))
    ensures |Footer| <= |r| && r[|r| - |Footer|..] == Footer
    ensures |errors| > 0 ==>
      StartsWith(r[|Header(|errors|, timestamp)|..], Render(Plan(errors[0], 0, |errors|, maxStackLength)))
  {
    var head := Header(|errors|, timestamp);
    var ps := Plans(errors, maxStackLength);
    var body := RenderAll(ps);
    ThreeParts(head, body, Footer);
    FirstSectionLeads(ps, Footer);
    head + body + Footer
  }

  lemma FirstSectionLeads(ps: seq<SectionPlan>, t: string)
    ensures |ps| > 0 ==> StartsWith(RenderAll(ps) + t, Render(ps[0]))
  {
    if |ps| > 0 {
      StartsWithAppend(RenderAll(ps), Render(ps[0]), t);
    }
  }

  lemma ThreeParts(a: string, b: string, c: string)
    ensures StartsWith(a + b + c, a)
    ensures (a + b + c)[|a|..] == b + c
    ensures |c| <= |a + b + c| && (a + b + c)[|a + b + c| - |c|..] == c
  {
    assert (a + b + c)[..|a|] == a;
  }

  lemma StartsWithAppend(s: string, p: string, t: string)
    requires StartsWith(s, p)
    ensures StartsWith(s + t, p)
  {
    assert (s + t)[..|p|] == s[..|p|];
  }

  /** The sections appear in batch order: the `k`-th report's section
      follows the header and the sections of the reports before it. */
  lemma PromptSectionsInOrder(errors: seq<ErrorReport>, timestamp: string, maxStackLength: int, k: nat)
    requires k < |errors|
    ensures var ps := Plans(errors, maxStackLength);
      BuildPrompt(errors, timestamp, maxStackLength)
      == Header(|errors|, timestamp) + RenderAll(ps[..k]) + Render(ps[k]) + RenderAll(ps[k + 1..]) + Footer
  {
    PromptShape(errors, timestamp, maxStackLength);
    SectionAt(Header(|errors|, timestamp), Footer, Plans(errors, maxStackLength), k);
  }

  lemma SectionAt(h: string, f: string, ps: seq<SectionPlan>, k: nat)
    requires k < |ps|
    ensures h + RenderAll(ps) + f == h + RenderAll(ps[..k]) + Render(ps[k]) + RenderAll(ps[k + 1..]) + f
  {
    RenderAllSplit(ps, k);
    RenderAllCons(ps[k..]);
    assert ps[k..][1..] == ps[k + 1..];
    Regroup(h, RenderAll(ps[..k]), Render(ps[k]), RenderAll(ps[k + 1..]), f);
  }

  lemma RenderAllCons(ps: seq<SectionPlan>)
    requires |ps| > 0
    ensures RenderAll(ps) == Render(ps[0]) + RenderAll(ps[1..])
  {
  }

  lemma Regroup(h: string, a: string, b: string, c: string, f: string)
    ensures h + (a + (b + c)) + f == h + a + b + c + f
  {
  }

  lemma PromptShape(errors: seq<ErrorReport>, timestamp: string, maxStackLength: int)
    ensures BuildPrompt(errors, timestamp, maxStackLength)
         == Header(|errors|, timestamp) + RenderAll(Plans(errors, maxStackLength)) + Footer
  {
  }

  /** Rendering a run of sections is rendering its two halves in turn. */
  lemma {:induction false} RenderAllSplit(ps: seq<SectionPlan>, k: nat)
    requires k <= |ps|
    ensures RenderAll(ps) == RenderAll(ps[..k]) + RenderAll(ps[k..])
    decreases k
  {
    if k > 0 {
      RenderAllSplit(ps[1..], k - 1);
      SplitSlices(ps, k);
      RenderAllCons(ps);
      RenderAllCons(ps[..k]);
      Assoc(Render(ps[0]), RenderAll(ps[..k][1..]), RenderAll(ps[k..]));
    }
  }

  lemma SplitSlices<T>(xs: seq<T>, k: nat)
    requires 0 < k <= |xs|
    ensures xs[1..][..k - 1] == xs[..k][1..] && xs[1..][k - 1..] == xs[k..] && xs[..k][0] == xs[0]
  {
  }

  lemma Assoc(a: string, b: string, c: string)
    ensures a + (b + c) == (a + b) + c
  {
  }

  /** Each field is dropped on its own: an empty source or stack reads as
      absent, and so does a context too long to include. The section of such
      a report is rendered as the one of the same report without that field,
      whatever the other fields hold. */
  lemma FalsyFieldsAreLeftOut(e: ErrorReport, i: nat, n: nat, maxStackLength: int)
    ensures !Truthy(e.source) ==>
      Render(Plan(e, i, n, maxStackLength)) == Render(Plan(e.(source := None), i, n, maxStackLength))
    ensures !Truthy(e.stack) ==>
      Render(Plan(e, i, n, maxStackLength)) == Render(Plan(e.(stack := None), i, n, maxStackLength))
    ensures e.context.Some? && |e.context.value| >= ContextLimit ==>
      Render(Plan(e, i, n, maxStackLength)) == Render(Plan(e.(context := None), i, n, maxStackLength))
    ensures !Truthy(e.source) && !Truthy(e.stack) && (e.context.None? || |e.context.value| >= ContextLimit) ==>
      Plan(e, i, n, maxStackLength) == SectionPlan(i + 1, n, e.message, None, None, None)
  {
  }

  /** A shown stack never exceeds the limit plus the truncation marker. */
  lemma ShownStackIsBounded(e: ErrorReport, i: nat, n: nat, maxStackLength: nat)
    requires Truthy(e.stack)
    ensures var p := Plan(e, i, n, maxStackLength);
      p.stack.Some? && |p.stack.value| <= maxStackLength + |TruncationMarker|
      && StartsWith(p.stack.value, Prefix(e.stack.value, maxStackLength))
  {
    var s := e.stack.value;
    var t := TruncateStack(s, maxStackLength);
    if |s| <= maxStackLength {
      assert Prefix(s, maxStackLength) == s;
    } else {
      assert t[..maxStackLength] == s[..maxStackLength];
    }
  }

  // ---------------------------------------------------------------- the SDK path

  /** How one SDK query went: the session ids announced by its
      `system`/`init` messages, in order, and whether it completed. */
  datatype Outcome = Outcome(initSessionIds: seq<string>, succeeded: bool)

  /** One query as issued: its prompt, the session it resumed, and the
      session store afterwards. */
  datatype Attempt = Attempt(prompt: string, resume: Option<string>, sessionAfter: Option<string>, succeeded: bool)

  /** Saves every announced id in turn, the last one staying. */
  function SaveAll(session: Option<string>, ids: seq<string>): (r: Option<string>)
    ensures |ids| == 0 ==> r == session
    ensures |ids| > 0 ==> r == Some(ids[|ids| - 1])
    decreases |ids|
  {
    if |ids| == 0 then session else SaveAll(Some(ids[0]), ids[1..])
  }

  /** `executeSDKQuery(prompt)`: resumes the saved session only when there
      is a non-empty one. */
  function ExecuteQuery(session: Option<string>, prompt: string, outcome: Outcome): (a: Attempt)
    ensures a.prompt == prompt && a.succeeded == outcome.succeeded
    ensures a.resume.Some? <==> Truthy(session)
    ensures a.resume.Some? ==> a.resume == session
    ensures a.sessionAfter == SaveAll(session, outcome.initSessionIds)
  {
    Attempt(prompt, if Truthy(session) then session else None, SaveAll(session, outcome.initSessionIds), outcome.succeeded)
  }

  /** The attempts made, the number of session resets, the session store at
      the end, and which attempt's error propagated (`None` on success). */
  datatype SdkRun = SdkRun(attempts: seq<Attempt>, resets: nat, session: Option<string>, failure: Option<nat>)

  /** `sendViaSDK(prompt)`, given how each of the (at most two) queries would
      go. The session is read after the first query fails, so an id that
      query saved itself also leads to the retry. */
  function SendViaSdk(session: Option<string>, prompt: string, first: Outcome, second: Outcome): (r: SdkRun)
    ensures 1 <= |r.attempts| <= 2
    ensures r.attempts[0] == ExecuteQuery(session, prompt, first)
    ensures |r.attempts| == 2 <==> !first.succeeded && Truthy(SaveAll(session, first.initSessionIds))
    ensures |r.attempts| == 2 ==>
      && r.resets == 1
      && r.attempts[1] == ExecuteQuery(None, prompt, second)
      && r.attempts[1].resume == None
    ensures |r.attempts| == 1 ==> r.resets == 0
    ensures r.session == r.attempts[|r.attempts| - 1].sessionAfter
    ensures r.failure.None? <==> r.attempts[|r.attempts| - 1].succeeded
    ensures r.failure.Some? ==> r.failure.value == |r.attempts|
  {
    var a := ExecuteQuery(session, prompt, first);
    if first.succeeded then SdkRun([a], 0, a.sessionAfter, None)
    else if Truthy(a.sessionAfter) then
      var b := ExecuteQuery(None, prompt, second);
      SdkRun([a, b], 1, b.sessionAfter, if second.succeeded then None else Some(2))
    else SdkRun([a], 0, a.sessionAfter, Some(1))
  }

  /** A first query that fails without any session, before or during it,
      propagates its own error and is not retried. */
  lemma NoSessionNoRetry(session: Option<string>, prompt: string, first: Outcome, second: Outcome)
    requires !Truthy(session) && !first.succeeded && first.initSessionIds == []
    ensures var r := SendViaSdk(session, prompt, first, second);
      |r.attempts| == 1 && r.failure == Some(1) && r.resets == 0
  {
  }

  /** A query with no saved session that announces an id and then fails is
      retried in a new session: the id is read only after the failure. */
  lemma FreshSessionFailureIsRetried(prompt: string, id: string, second: Outcome)
    requires id != ""
    ensures var r := SendViaSdk(None, prompt, Outcome([id], false), second);
      |r.attempts| == 2 && r.attempts[0].resume == None && r.attempts[1].resume == None
      && (second.succeeded <==> r.failure == None)
  {
  }

  /** A resumed query that fails is retried exactly once, in a new session,
      with the same prompt; the retry's failure is the one that propagates. */
  lemma ResumeFailureRetriesOnce(id: string, prompt: string, first: Outcome, second: Outcome)
    requires id != "" && !first.succeeded
    requires forall k | 0 <= k < |first.initSessionIds| :: first.initSessionIds[k] != ""
    ensures var r := SendViaSdk(Some(id), prompt, first, second);
      && |r.attempts| == 2 && r.attempts[0].resume == Some(id)
      && r.attempts[1].prompt == prompt && r.attempts[1].resume == None
      && (!second.succeeded ==> r.failure == Some(2))
  {
    var ids := first.initSessionIds;
    assert |ids| > 0 ==> ids[|ids| - 1] == SaveAll(Some(id), ids).value;
  }

  // ---------------------------------------------------------------- the CLI path

  /** `s.replace(/'/g, "'\\''")`: every single quote becomes `'\''`. */
  function Escape(s: string): (r: string)
    ensures |r| >= |s|
    ensures (forall i | 0 <= i < |s| :: s[i] != '\'') ==> r == s
    decreases |s|
  {
    if |s| == 0 then ""
    else (if s[0] == '\'' then "'\\''" else [s[0]]) + Escape(s[1..])
  }

  /** A character the shell reads specially when it stands unquoted: a blank,
      which ends the word, or one that starts a pipe, a list, a redirection,
      a subshell, an expansion, a glob, a comment or a tilde prefix. */
  predicate ShellSpecial(c: char) {
    c in " \t\n|&;<>()$`\"*?[#~"
  }

  /** How a POSIX shell reads one word made of single-quoted runs, backslash
      escapes and plain characters; `None` for an unterminated quote, a
      trailing backslash, or an unquoted blank or special character, so a
      word it accepts reaches the command as one argument, literally. */
  function Unquote(s: string): (r: Option<string>)
    decreases |s|
  {
    if |s| == 0 then Some("")
    else if s[0] == '\'' then
      match IndexOf(s[1..], "'")
      case None => None
      case Some(j) =>
        var rest := Unquote(s[j + 2..]);
        if rest.None? then None else Some(s[1..j + 1] + rest.value)
    else if s[0] == '\\' then
      if |s| < 2 then None
      else
        var rest := Unquote(s[2..]);
        if rest.None? then None else Some([s[1]] + rest.value)
    else if ShellSpecial(s[0]) then None
    else
      var rest := Unquote(s[1..]);
      if rest.None? then None else Some([s[0]] + rest.value)
  }

  /** An unquoted blank or special character before any quote or backslash
      makes the text no single literal word: an unescaped prompt, which
      always holds spaces and newlines, would not reach `echo` intact. */
  lemma {:induction false} UnquotedSpecialIsRejected(s: string, i: nat)
    requires i < |s| && ShellSpecial(s[i])
    requires forall k | 0 <= k < i :: s[k] != '\'' && s[k] != '\\'
    ensures Unquote(s) == None
    decreases i
  {
    if i > 0 && !ShellSpecial(s[0]) {
      assert s[1..][i - 1] == s[i];
      assert forall k | 0 <= k < i - 1 :: s[1..][k] == s[k + 1];
      UnquotedSpecialIsRejected(s[1..], i - 1);
    }
  }

  /** The prompt opens with a `#`, so passed to `echo` unescaped it would not
      be one literal word: the escaping is what carries it intact. */
  lemma UnescapedPromptIsNoWord(errors: seq<ErrorReport>, timestamp: string, maxStackLength: int)
    ensures Unquote(BuildPrompt(errors, timestamp, maxStackLength)) == None
  {
    var prompt := BuildPrompt(errors, timestamp, maxStackLength);
    PromptShape(errors, timestamp, maxStackLength);
    assert prompt[0] == '#';
    UnquotedSpecialIsRejected(prompt, 0);
  }

  lemma {:induction false} EscapeAppend(a: string, b: string)
    ensures Escape(a + b) == Escape(a) + Escape(b)
    decreases |a|
  {
    if |a| > 0 {
      var head := if a[0] == '\'' then "'\\''" else [a[0]];
      assert (a + b)[0] == a[0];
      assert (a + b)[1..] == a[1..] + b;
      EscapeAppend(a[1..], b);
      assert Escape(a + b) == head + Escape(a[1..] + b);
      assert Escape(a) == head + Escape(a[1..]);
      Assoc(head, Escape(a[1..]), Escape(b));
    } else {
      assert a + b == b;
    }
  }

  /** Single-quoting the escaped prompt gives the shell back exactly the
      prompt. */
  lemma {:induction false} ShellQuotingRoundTrip(p: string)
    ensures Unquote("'" + Escape(p) + "'") == Some(p)
    decreases |p|
  {
    match IndexOf(p, "'")
    case None =>
      NoQuoteAnywhere(p);
      QuotedRun(p, "");
      assert Escape(p) == p;
      assert "'" + p + "'" + "" == "'" + Escape(p) + "'";
      assert Unquote("") == Some("");
      assert p + "" == p;
    case Some(q) =>
      var u, v := p[..q], p[q + 1..];
      NoQuoteBefore(p, q);
      ShellQuotingRoundTrip(v);
      assert Escape(u) == u;
      EscapeAtFirstQuote(u, v);
      UnquoteAfterQuote(u, v);
  }

  lemma NoQuoteAnywhere(p: string)
    requires IndexOf(p, "'").None?
    ensures forall i | 0 <= i < |p| :: p[i] != '\''
  {
    forall i | 0 <= i < |p|
      ensures p[i] != '\''
    {
      assert !OccursAt(p, i, "'");
      assert p[i..i + 1] == [p[i]];
    }
  }

  /** Escaping at the first quote: the quote-free part is kept as it is. */
  lemma EscapeAtFirstQuote(u: string, v: string)
    requires Escape(u) == u
    ensures Escape(u + "'" + v) == u + ("'\\''" + Escape(v))
  {
    var quote := "'\\''";
    EscapeAppend(u + "'", v);
    EscapeAppend(u, "'");
    EscapeQuote();
    assert Escape(u + "'") == u + quote;
    Assoc(u, quote, Escape(v));
  }

  lemma EscapeQuote()
    ensures Escape("'") == "'\\''"
  {
    assert "'"[1..] == "";
  }

  lemma UnquoteAfterQuote(u: string, v: string)
    requires forall i | 0 <= i < |u| :: u[i] != '\''
    requires Unquote("'" + Escape(v) + "'") == Some(v)
    ensures Unquote("'" + (u + ("'\\''" + Escape(v))) + "'") == Some(u + "'" + v)
  {
    var rest := "'" + Escape(v) + "'";
    QuoteRegroup(u, Escape(v));
    QuotedRun(u, "\\'" + rest);
    EscapedChar('\'', rest);
    Assoc(u, "'", v);
  }

  /** The escaped quote splits into closing the run, a backslash-escaped
      quote, and a new run. */
  lemma QuoteRegroup(u: string, e: string)
    ensures "'" + (u + ("'\\''" + e)) + "'" == "'" + u + "'" + ("\\'" + ("'" + e + "'"))
  {
    var lhs := "'" + (u + ("'\\''" + e)) + "'";
    var rhs := "'" + u + "'" + ("\\'" + ("'" + e + "'"));
    assert |lhs| == |rhs|;
    forall k | 0 <= k < |lhs|
      ensures lhs[k] == rhs[k]
    {
      if k == 0 || k > |u| + 4 {
      } else if k <= |u| {
        assert lhs[k] == u[k - 1] == rhs[k];
      }
    }
  }

  lemma NoQuoteBefore(p: string, q: nat)
    requires IndexOf(p, "'") == Some(q)
    ensures p == p[..q] + "'" + p[q + 1..]
    ensures forall i | 0 <= i < |p[..q]| :: p[..q][i] != '\''
  {
    assert p[q..q + 1] == "'";
    forall i | 0 <= i < q
      ensures p[..q][i] != '\''
    {
      assert !OccursAt(p, i, "'");
      assert p[i..i + 1] == [p[i]];
    }
  }

  /** A quoted run without quotes inside ends at the next quote. */
  lemma QuotedRun(u: string, rest: string)
    requires forall i | 0 <= i < |u| :: u[i] != '\''
    ensures Unquote("'" + u + "'" + rest)
         == if Unquote(rest).None? then None else Some(u + Unquote(rest).value)
  {
    var s := "'" + u + "'" + rest;
    var t := s[1..];
    assert t == u + "'" + rest;
    assert OccursAt(t, |u|, "'") by {
      assert t[|u|..|u| + 1] == "'";
    }
    forall j | 0 <= j < |u|
      ensures !OccursAt(t, j, "'")
    {
      assert t[j] == u[j];
      OccursAtHead(t, j, "'");
    }
    assert IndexOf(t, "'") == Some(|u|);
    assert s[1..|u| + 1] == u;
    assert s[|u| + 2..] == rest;
  }

  /** A backslash makes the next character literal. */
  lemma EscapedChar(c: char, rest: string)
    ensures Unquote("\\" + [c] + rest)
         == if Unquote(rest).None? then None else Some([c] + Unquote(rest).value)
  {
    var s := "\\" + [c] + rest;
    assert s[2..] == rest;
  }

  /** `--resume <id>` only when a non-empty session id is saved. */
  function ResumeFlag(session: Option<string>): (r: string)
    ensures r == "" <==> !Truthy(session)
  {
    if Truthy(session) then "--resume " + session.value else ""
  }

  const CliInvocation := " | claude -p --dangerously-skip-permissions "

  /** The shell command line `sendViaCLI` runs: one echoed word that the
      shell reads back as exactly the prompt, piped to the tool, with
      `--resume <id>` for a saved non-empty session id and nothing after the
      invocation otherwise. */
  function CliCommand(prompt: string, session: Option<string>): (r: string)
    ensures Truthy(session) ==> exists word: string ::
      && r == "echo " + word + CliInvocation + "--resume " + session.value
      && Unquote(word) == Some(prompt)
    ensures !Truthy(session) ==> exists word: string ::
      && r == "echo " + word + CliInvocation
      && Unquote(word) == Some(prompt)
  {
    var word := "'" + Escape(prompt) + "'";
    ShellQuotingRoundTrip(prompt);
    "echo " + word + CliInvocation + ResumeFlag(session)
  }

  /** The command run and whether it succeeded; the CLI path neither resets
      the session nor retries, and a failure propagates. */
  datatype CliRun = CliRun(command: string, session: Option<string>, failed: bool)

  function SendViaCli(session: Option<string>, prompt: string, exitedNormally: bool): (r: CliRun)
    ensures r.command == CliCommand(prompt, session)
    ensures r.session == session
    ensures r.failed == !exitedNormally
  {
    CliRun(CliCommand(prompt, session), session, !exitedNormally)
  }

  // ---------------------------------------------------------------- dispatch

  datatype Delivery = ViaSdk(prompt: string, sdk: SdkRun) | ViaCli(prompt: string, cli: CliRun)

  /** `send(errors)`: the SDK when the mode is exactly `"sdk"`, the shell
      for any other mode. */
  function Send(config: Config, session: Option<string>, errors: seq<ErrorReport>, timestamp: string,
                first: Outcome, second: Outcome, exitedNormally: bool): (r: Delivery)
    ensures r.prompt == BuildPrompt(errors, timestamp, config.maxStackLength)
    ensures r.ViaSdk? <==> config.claudeMode == "sdk"
    ensures r.ViaSdk? ==> r.sdk == SendViaSdk(session, r.prompt, first, second)
    ensures r.ViaCli? ==> r.cli == SendViaCli(session, r.prompt, exitedNormally)
  {
    var prompt := BuildPrompt(errors, timestamp, config.maxStackLength);
    if config.claudeMode == "sdk" then ViaSdk(prompt, SendViaSdk(session, prompt, first, second))
    else ViaCli(prompt, SendViaCli(session, prompt, exitedNormally))
  }

  /** Whatever the mode, the prompt built from the batch is what reaches the
      agent. In `"sdk"` mode it goes to one or two queries, the first
      resuming the saved session and a retry starting a new one; in any other
      mode it goes as the one word of a shell command that resumes the saved
      session, keeps the session store and fails when the command does. */
  lemma SendDeliversPrompt(config: Config, session: Option<string>, errors: seq<ErrorReport>, timestamp: string,
                           first: Outcome, second: Outcome, exitedNormally: bool)
    ensures var r := Send(config, session, errors, timestamp, first, second, exitedNormally);
      var prompt := BuildPrompt(errors, timestamp, config.maxStackLength);
      && (config.claudeMode == "sdk" ==>
            && r.ViaSdk? && 1 <= |r.sdk.attempts| <= 2
            && (forall k | 0 <= k < |r.sdk.attempts| :: r.sdk.attempts[k].prompt == prompt)
            && r.sdk.attempts[0].resume == (if Truthy(session) then session else None)
            && (|r.sdk.attempts| == 2 ==> r.sdk.attempts[1].resume == None))
      && (config.claudeMode != "sdk" ==>
            && r.ViaCli? && r.cli.session == session && (r.cli.failed <==> !exitedNormally)
            && exists word: string ::
                 && r.cli.command == "echo " + word + CliInvocation + ResumeFlag(session)
                 && Unquote(word) == Some(prompt))
  {
    var prompt := BuildPrompt(errors, timestamp, config.maxStackLength);
    SdkRunCarriesPrompt(session, prompt, first, second);
    CliRunCarriesPrompt(session, prompt, exitedNormally);
  }

  /** Every SDK query is given the same prompt; only the first may resume. */
  lemma SdkRunCarriesPrompt(session: Option<string>, prompt: string, first: Outcome, second: Outcome)
    ensures var r := SendViaSdk(session, prompt, first, second);
      && 1 <= |r.attempts| <= 2
      && (forall k | 0 <= k < |r.attempts| :: r.attempts[k].prompt == prompt)
      && r.attempts[0].resume == (if Truthy(session) then session else None)
      && (|r.attempts| == 2 ==> r.attempts[1].resume == None)
  {
  }

  /** The shell run's one word reads back as the prompt. */
  lemma CliRunCarriesPrompt(session: Option<string>, prompt: string, exitedNormally: bool)
    ensures var r := SendViaCli(session, prompt, exitedNormally);
      && r.session == session && (r.failed <==> !exitedNormally)
      && exists word: string ::
           && r.command == "echo " + word + CliInvocation + ResumeFlag(session)
           && Unquote(word) == Some(prompt)
  {
    var word := "'" + Escape(prompt) + "'";
    ShellQuotingRoundTrip(prompt);
    assert SendViaCli(session, prompt, exitedNormally).command == "echo " + word + CliInvocation + ResumeFlag(session);
  }
}

=== FILE: buffer.dfy ===
/** The relay's debounce buffer. Reports collect until a timer fires or the
    buffer reaches its size limit; a flush hands the whole buffer to the
    remediation callback as one batch and marks each of its messages as in
    flight until the batch settles. A report whose message is in flight is
    not buffered but counted as a skipped duplicate.

    The timer and the callback's promise become explicit events: `TimerFire`
    is the debounce timeout, `Settle(k)` is the `finally` of the `k`-th
    batch still being processed. */
module ErrorBuffer {
  import opened Wrappers
  import opened Reports

  const Processing := "processing"

  /** The bookkeeping kept for a message while its batch is processed. */
  datatype Entry = Entry(
    message: string,
    source: Option<string>,
    sentAt: int,
    skippedCount: nat,
    status: string)

  /** The buffer's state: the reports waiting for a flush, whether a
      debounce timer is armed, the in-flight map keyed by message, and the
      batches handed to the callback that have not settled yet, oldest
      first. */
  datatype Buffer = Buffer(
    buffer: seq<ErrorReport>,
    timerArmed: bool,
    inFlight: map<string, Entry>,
    pending: seq<seq<ErrorReport>>,
    maxSize: int)

  /** The messages of a batch. */
  function Messages(batch: seq<ErrorReport>): set<string> {
    set i | 0 <= i < |batch| :: batch[i].message
  }

  /** The messages of every unsettled batch. */
  function PendingMessages(pending: seq<seq<ErrorReport>>): set<string> {
    set k, i | 0 <= k < |pending| && 0 <= i < |pending[k]| :: pending[k][i].message
  }

  /** The buffered reports are not in flight, and the in-flight map holds
      exactly the messages of the unsettled batches, which share none. */
  predicate Tracked(b: Buffer) {
    && (forall i | 0 <= i < |b.buffer| :: b.buffer[i].message !in b.inFlight)
    && b.inFlight.Keys == PendingMessages(b.pending)
    && (forall m | m in b.inFlight :: b.inFlight[m].message == m)
    && (forall k | 0 <= k < |b.pending| :: |b.pending[k]| > 0)
    && (forall k, l | 0 <= k < l < |b.pending| :: Messages(b.pending[k]) !! Messages(b.pending[l]))
  }

  /** What the buffer guarantees between events: besides the bookkeeping,
      the timer is armed exactly while reports wait, and fewer than the
      limit wait. */
  predicate Valid(b: Buffer) {
    && Tracked(b)
    && (b.timerArmed <==> |b.buffer| > 0)
    && (|b.buffer| == 0 || |b.buffer| < b.maxSize)
  }

  /** A freshly constructed buffer. */
  function Init(maxSize: int): (b: Buffer)
    ensures Valid(b)
    ensures b.buffer == [] && !b.timerArmed && b.inFlight == map[] && b.pending == []
    ensures b.maxSize == maxSize
  {
    Buffer([], false, map[], [], maxSize)
  }

  /** The entry a flush records for a report. */
  function Fresh(e: ErrorReport, now: int): Entry {
    Entry(e.message, e.source, now, 0, Processing)
  }

  /** No later report of the batch has the same message as the `i`-th. */
  predicate LastOccurrence(batch: seq<ErrorReport>, i: nat)
    requires i < |batch|
  {
    forall j | i < j < |batch| :: batch[j].message != batch[i].message
  }

  /** Registers every report of the batch in order, a later report with the
      same message overwriting an earlier one. */
  function Register(inFlight: map<string, Entry>, batch: seq<ErrorReport>, now: int): (r: map<string, Entry>)
    ensures r.Keys == inFlight.Keys + Messages(batch)
  {
    if |batch| == 0 then inFlight
    else
      var last := batch[|batch| - 1];
      MessagesSnoc(batch);
      Register(inFlight, batch[..|batch| - 1], now)[last.message := Fresh(last, now)]
  }

  lemma MessagesSnoc(batch: seq<ErrorReport>)
    requires |batch| > 0
    ensures Messages(batch) == Messages(batch[..|batch| - 1]) + {batch[|batch| - 1].message}
  {
    var front := batch[..|batch| - 1];
    assert forall i | 0 <= i < |front| :: front[i] == batch[i];
    forall m | m in Messages(batch)
      ensures m in Messages(front) + {batch[|batch| - 1].message}
    {
      var i :| 0 <= i < |batch| && batch[i].message == m;
      if i < |front| {
        assert front[i].message == m;
      }
    }
  }

  /** Registering leaves the entries of other messages alone. */
  lemma {:induction false} RegisterKeepsOthers(inFlight: map<string, Entry>, batch: seq<ErrorReport>, now: int, m: string)
    requires m in inFlight && m !in Messages(batch)
    ensures Register(inFlight, batch, now)[m] == inFlight[m]
    decreases |batch|
  {
    if |batch| > 0 {
      MessagesSnoc(batch);
      RegisterKeepsOthers(inFlight, batch[..|batch| - 1], now, m);
    }
  }

  /** Every message of the batch ends up with a fresh entry: sent now, no
      duplicates skipped yet, status `processing`. */
  lemma {:induction false} RegisterEntries(inFlight: map<string, Entry>, batch: seq<ErrorReport>, now: int, i: nat)
    requires i < |batch|
    ensures var entry := Register(inFlight, batch, now)[batch[i].message];
      entry.message == batch[i].message && entry.sentAt == now
      && entry.skippedCount == 0 && entry.status == Processing
    decreases |batch|
  {
    var front := batch[..|batch| - 1];
    if i < |front| && batch[i].message != batch[|batch| - 1].message {
      assert front[i] == batch[i];
      RegisterEntries(inFlight, front, now, i);
    }
  }

  /** The entry kept for a message is the one built from its last report. */
  lemma {:induction false} RegisterLastWins(inFlight: map<string, Entry>, batch: seq<ErrorReport>, now: int, i: nat)
    requires i < |batch| && LastOccurrence(batch, i)
    ensures Register(inFlight, batch, now)[batch[i].message] == Fresh(batch[i], now)
    decreases |batch|
  {
    var front := batch[..|batch| - 1];
    if i < |front| {
      assert front[i] == batch[i];
      assert LastOccurrence(front, i);
      RegisterLastWins(inFlight, front, now, i);
    }
  }

  /** `flush()`: the timer is cancelled; a non-empty buffer becomes a batch
      for the callback and its messages go in flight. */
  function Flush(b: Buffer, now: int): (r: (Buffer, Option<seq<ErrorReport>>))
    ensures r.0.buffer == [] && !r.0.timerArmed && r.0.maxSize == b.maxSize
    ensures |b.buffer| == 0 ==> r.1 == None && r.0.inFlight == b.inFlight && r.0.pending == b.pending
    ensures |b.buffer| > 0 ==>
      && r.1 == Some(b.buffer)
      && r.0.pending == b.pending + [b.buffer]
      && r.0.inFlight.Keys == b.inFlight.Keys + Messages(b.buffer)
      && r.0.inFlight == Register(b.inFlight, b.buffer, now)
  {
    if |b.buffer| == 0 then (b.(timerArmed := false), None)
    else
      var batch := b.buffer;
      (b.(buffer := [], timerArmed := false,
          inFlight := Register(b.inFlight, batch, now),
          pending := b.pending + [batch]),
       Some(batch))
  }

  /** `add(error)`: an in-flight message only counts a skipped duplicate;
      any other report is appended, and the buffer is flushed once it holds
      `maxSize` reports, otherwise the debounce timer is re-armed. The
      second component is the batch handed to the callback, if any. */
  function Add(b: Buffer, e: ErrorReport, now: int): (r: (Buffer, Option<seq<ErrorReport>>))
    ensures e.message in b.inFlight ==>
      && r.1 == None
      && r.0 == b.(inFlight := b.inFlight[e.message := b.inFlight[e.message].(skippedCount := b.inFlight[e.message].skippedCount + 1)])
    ensures e.message !in b.inFlight && |b.buffer| + 1 >= b.maxSize ==>
      && r.1 == Some(b.buffer + [e])
      && r.0.buffer == [] && !r.0.timerArmed
      && r.0.pending == b.pending + [b.buffer + [e]]
    ensures e.message !in b.inFlight && |b.buffer| + 1 < b.maxSize ==>
      r == (b.(buffer := b.buffer + [e], timerArmed := true), None)
    ensures r.0.maxSize == b.maxSize
  {
    if e.message in b.inFlight then
      var entry := b.inFlight[e.message];
      (b.(inFlight := b.inFlight[e.message := entry.(skippedCount := entry.skippedCount + 1)]), None)
    else
      var grown := b.(buffer := b.buffer + [e]);
      if |grown.buffer| >= b.maxSize then Flush(grown, now)
      else (grown.(timerArmed := true), None)
  }

  /** The debounce timeout: only an armed timer can fire. */
  function TimerFire(b: Buffer, now: int): (r: (Buffer, Option<seq<ErrorReport>>))
    requires b.timerArmed
    ensures r.1 == Some(b.buffer) || |b.buffer| == 0
    ensures r.0.buffer == [] && !r.0.timerArmed
  {
    Flush(b, now)
  }

  /** The `finally` of the `k`-th unsettled batch, whether the callback
      succeeded or failed: each of its messages leaves the in-flight map. */
  function Settle(b: Buffer, k: nat): (r: Buffer)
    requires k < |b.pending|
    ensures r.inFlight.Keys == b.inFlight.Keys - Messages(b.pending[k])
    ensures forall m | m in r.inFlight :: r.inFlight[m] == b.inFlight[m]
    ensures |r.pending| == |b.pending| - 1
    ensures forall j | 0 <= j < |r.pending| :: r.pending[j] == b.pending[if j < k then j else j + 1]
    ensures r.buffer == b.buffer && r.timerArmed == b.timerArmed && r.maxSize == b.maxSize
  {
    b.(inFlight := b.inFlight - Messages(b.pending[k]),
       pending := b.pending[..k] + b.pending[k + 1..])
  }

  /** `size()`. */
  function Size(b: Buffer): nat {
    |b.buffer|
  }

  /** `inFlightCount()`. */
  function InFlightCount(b: Buffer): nat {
    |b.inFlight|
  }

  // ---------------------------------------------------------------- the invariant is kept

  lemma BatchInPending(pending: seq<seq<ErrorReport>>, k: nat)
    requires k < |pending|
    ensures Messages(pending[k]) <= PendingMessages(pending)
  {
    forall m | m in Messages(pending[k])
      ensures m in PendingMessages(pending)
    {
      var i :| 0 <= i < |pending[k]| && pending[k][i].message == m;
    }
  }

  lemma PendingAppend(pending: seq<seq<ErrorReport>>, batch: seq<ErrorReport>)
    ensures PendingMessages(pending + [batch]) == PendingMessages(pending) + Messages(batch)
  {
    var p := pending + [batch];
    forall m | m in PendingMessages(p)
      ensures m in PendingMessages(pending) + Messages(batch)
    {
      var k, i :| 0 <= k < |p| && 0 <= i < |p[k]| && p[k][i].message == m;
      if k < |pending| {
        assert pending[k][i].message == m;
      } else {
        assert batch[i].message == m;
      }
    }
    forall m | m in PendingMessages(pending) + Messages(batch)
      ensures m in PendingMessages(p)
    {
      if m in Messages(batch) {
        var i :| 0 <= i < |batch| && batch[i].message == m;
        assert p[|pending|][i].message == m;
      } else {
        var k, i :| 0 <= k < |pending| && 0 <= i < |pending[k]| && pending[k][i].message == m;
        assert p[k][i].message == m;
      }
    }
  }

  lemma PendingRemove(pending: seq<seq<ErrorReport>>, k: nat)
    requires k < |pending|
    requires forall a, c | 0 <= a < c < |pending| :: Messages(pending[a]) !! Messages(pending[c])
    ensures PendingMessages(pending[..k] + pending[k + 1..]) == PendingMessages(pending) - Messages(pending[k])
  {
    var p := pending[..k] + pending[k + 1..];
    assert forall j | 0 <= j < |p| :: p[j] == pending[if j < k then j else j + 1];
    forall m | m in PendingMessages(p)
      ensures m in PendingMessages(pending) - Messages(pending[k])
    {
      var j, i :| 0 <= j < |p| && 0 <= i < |p[j]| && p[j][i].message == m;
      var src := if j < k then j else j + 1;
      assert m in Messages(pending[src]);
      BatchInPending(pending, src);
      if src < k {
        assert Messages(pending[src]) !! Messages(pending[k]);
      } else {
        assert Messages(pending[k]) !! Messages(pending[src]);
      }
    }
    forall m | m in PendingMessages(pending) - Messages(pending[k])
      ensures m in PendingMessages(p)
    {
      var j, i :| 0 <= j < |pending| && 0 <= i < |pending[j]| && pending[j][i].message == m;
      assert m in Messages(pending[j]);
      var dst := if j < k then j else j - 1;
      assert p[dst][i].message == m;
    }
  }

  lemma InitValid(maxSize: int)
    ensures Valid(Init(maxSize))
  {
  }

  /** A flush needs only the bookkeeping: it empties the buffer and disarms
      the timer whatever the limit. */
  lemma FlushValid(b: Buffer, now: int)
    requires Tracked(b)
    ensures Valid(Flush(b, now).0)
  {
    if |b.buffer| > 0 {
      var r := Flush(b, now).0;
      PendingAppend(b.pending, b.buffer);
      forall k, l | 0 <= k < l < |r.pending|
        ensures Messages(r.pending[k]) !! Messages(r.pending[l])
      {
        if l == |b.pending| {
          BatchInPending(b.pending, k);
          assert r.pending[l] == b.buffer;
        }
      }
      forall m | m in r.inFlight
        ensures r.inFlight[m].message == m
      {
        if m in Messages(b.buffer) {
          var i :| 0 <= i < |b.buffer| && b.buffer[i].message == m;
          RegisterEntries(b.inFlight, b.buffer, now, i);
        } else {
          RegisterKeepsOthers(b.inFlight, b.buffer, now, m);
        }
      }
    }
  }

  lemma AddValid(b: Buffer, e: ErrorReport, now: int)
    requires Valid(b)
    ensures Valid(Add(b, e, now).0)
  {
    if e.message !in b.inFlight {
      var grown := b.(buffer := b.buffer + [e]);
      assert Tracked(grown);
      if |grown.buffer| >= b.maxSize {
        FlushValid(grown, now);
      }
    }
  }

  lemma TimerFireValid(b: Buffer, now: int)
    requires Valid(b) && b.timerArmed
    ensures Valid(TimerFire(b, now).0)
  {
    FlushValid(b, now);
  }

  lemma SettleValid(b: Buffer, k: nat)
    requires Valid(b) && k < |b.pending|
    ensures Valid(Settle(b, k))
  {
    PendingRemove(b.pending, k);
  }

  // ---------------------------------------------------------------- what the invariant gives

  /** With a positive limit the buffer always holds fewer than `maxSize`
      reports between events. */
  lemma SizeBelowLimit(b: Buffer)
    requires Valid(b) && b.maxSize >= 1
    ensures Size(b) < b.maxSize
  {
  }

  /** The in-flight count is the number of distinct messages across the
      unsettled batches. */
  lemma InFlightCountIsPendingMessages(b: Buffer)
    requires Valid(b)
    ensures InFlightCount(b) == |PendingMessages(b.pending)|
  {
    assert b.inFlight.Keys == PendingMessages(b.pending);
  }

  /** Once its batch settles, a message is accepted into the buffer again. */
  lemma SettledMessageIsBufferedAgain(b: Buffer, k: nat, e: ErrorReport, now: int)
    requires Valid(b) && k < |b.pending| && e.message in Messages(b.pending[k])
    requires b.maxSize > |b.buffer| + 1
    ensures Add(Settle(b, k), e, now).0.buffer == b.buffer + [e]
  {
  }

  /** Adds one report after another, collecting the batches handed to the
      callback. */
  function AddAll(b: Buffer, es: seq<ErrorReport>, now: int): (r: (Buffer, seq<seq<ErrorReport>>))
    ensures r.0.maxSize == b.maxSize
    decreases |es|
  {
    if |es| == 0 then (b, [])
    else
      var step := Add(b, es[0], now);
      var rest := AddAll(step.0, es[1..], now);
      (rest.0, (if step.1.Some? then [step.1.value] else []) + rest.1)
  }

  /** Reports whose messages are not in flight are all buffered, duplicates
      included, as long as the size limit is not reached. */
  lemma {:induction false} AddAllKeepsDuplicates(b: Buffer, es: seq<ErrorReport>, now: int)
    requires forall i | 0 <= i < |es| :: es[i].message !in b.inFlight
    requires |b.buffer| + |es| < b.maxSize
    ensures AddAll(b, es, now).0.buffer == b.buffer + es
    ensures AddAll(b, es, now).0.inFlight == b.inFlight
    ensures AddAll(b, es, now).1 == []
    ensures |es| > 0 ==> AddAll(b, es, now).0.timerArmed
    decreases |es|
  {
    if |es| > 0 {
      var step := Add(b, es[0], now);
      assert step.0.buffer == b.buffer + [es[0]] && step.0.inFlight == b.inFlight;
      AddAllKeepsDuplicates(step.0, es[1..], now);
      assert b.buffer + [es[0]] + es[1..] == b.buffer + es;
    }
  }

  /** The same report added three times before the timer fires reaches the
      callback three times, in one batch. */
  lemma DuplicatesBeforeFlushShareABatch(e: ErrorReport, now: int)
    ensures var b := AddAll(Init(10), [e, e, e], now).0;
      b.timerArmed && TimerFire(b, now).1 == Some([e, e, e])
  {
    AddAllKeepsDuplicates(Init(10), [e, e, e], now);
    var b := AddAll(Init(10), [e, e, e], now).0;
    assert b.buffer == [] + [e, e, e] == [e, e, e];
    assert TimerFire(b, now).1 == Some(b.buffer);
  }

  /** A report whose message is in flight is counted, not sent again. */
  lemma InFlightDuplicateIsSkipped(e: ErrorReport, now: int, later: int)
    ensures var flushed := Flush(Add(Init(10), e, now).0, now).0;
      var r := Add(flushed, e, later);
      && r.1 == None && r.0.buffer == []
      && r.0.inFlight[e.message].skippedCount == 1
      && r.0.pending == [[e]]
  {
    FirstFlush(e, now);
  }

  /** Flushing a new buffer after its first report puts exactly that report
      in flight, as one pending batch. */
  lemma FirstFlush(e: ErrorReport, now: int)
    ensures Flush(Add(Init(10), e, now).0, now).0 == Buffer([], false, map[e.message := Fresh(e, now)], [[e]], 10)
  {
    var added := Add(Init(10), e, now).0;
    assert added.buffer == [e];
    assert [e][..0] == [];
    assert Register(map[], [e], now) == map[e.message := Fresh(e, now)];
  }

  /** Reaching the limit flushes at once, without waiting for the timer. */
  lemma LimitTriggersFlush(b: Buffer, e: ErrorReport, now: int)
    requires Valid(b) && e.message !in b.inFlight && |b.buffer| + 1 == b.maxSize
    ensures Add(b, e, now).1 == Some(b.buffer + [e])
    ensures Size(Add(b, e, now).0) == 0
  {
  }
}

=== FILE: dart_parser.dfy ===
/** The Dart / Flutter stderr recogniser: which line opens an error block,
    which lines extend it, and what record a finished block becomes. Four
    block kinds exist: a runtime `Unhandled exception:`, a Flutter framework
    banner, a compiler diagnostic and a rejected hot reload. Each regular
    expression of the recogniser is written out below as a predicate over
    the line. */
module DartParser {
  import opened Wrappers
  import opened Text
  import opened Reports

  const Language := "dart"

  /** U+2550, the box-drawing character Flutter draws its banners with. */
  const Box: char := '\U{2550}'

  const UnhandledHeader := "Unhandled exception:"
  const HotReloadHeader := "Hot reload was rejected:"

  /** The banner caption, without the space that follows it in a full banner. */
  const Caption := " Exception caught by"

  /** What the library name of a banner follows. */
  const LibraryLead := "Exception caught by "

  const CompileMarker := ": Error:"

  // ---------------------------------------------------------------- line shapes

  /** `^═{10,}$`: a closing rule. */
  predicate IsSeparator(line: string) {
    |line| >= 10 && AllChar(line, Box)
  }

  predicate HasSeparator(lines: seq<string>) {
    exists i | 0 <= i < |lines| :: IsSeparator(lines[i])
  }

  /** `^═+ Exception caught by .+ ═+$`, with the leading rule ending at `a` and
      the `.+` occupying `[a + 21, b)`. */
  predicate IsBannerAt(line: string, a: int, b: int) {
    && 1 <= a && a + |Caption| + 1 < b < |line| - 1
    && AllChar(line[..a], Box)
    && line[a..a + |Caption| + 1] == Caption + " "
    && NoLineBreak(line[a + |Caption| + 1..b])
    && line[b] == ' '
    && AllChar(line[b + 1..], Box)
  }

  /** `^═+ Exception caught by .+ ═+$`: the opening line of a framework banner. */
  predicate IsBanner(line: string) {
    exists a, b | 0 <= a < b < |line| :: IsBannerAt(line, a, b)
  }

  /** `^═+ Exception caught by` with the rule ending at `a`. */
  predicate IsBannerOpeningAt(line: string, a: int) {
    1 <= a && a + |Caption| <= |line| && AllChar(line[..a], Box) && line[a..a + |Caption|] == Caption
  }

  /** `^═+ Exception caught by`: how the rest of a block recognises a banner. */
  predicate IsBannerOpening(line: string) {
    exists a | 0 <= a < |line| :: IsBannerOpeningAt(line, a)
  }

  /** `^#\d+\s+`: a stack frame such as `#0      main (file:///app.dart:3:5)`. */
  predicate IsFrame(line: string) {
    |line| >= 2 && line[0] == '#' && var d := DigitsEnd(line, 1); 1 < d < |line| && IsSpace(line[d])
  }

  /** `^(Receiver|Tried calling):`: the detail lines of a NoSuchMethodError. */
  predicate IsDetail(line: string) {
    StartsWith(line, "Receiver:") || StartsWith(line, "Tried calling:")
  }

  /** `^\s{2,}`: an indented source snippet. */
  predicate IsIndented(line: string) {
    |line| >= 2 && IsSpace(line[0]) && IsSpace(line[1])
  }

  /** `^\s*\^+\s*$`: a caret underline. `\s*` and `\^+` are greedy and neither
      can give characters back to what follows, so the runs are maximal. */
  predicate IsCaretLine(line: string) {
    var a := TrimStartIndex(line, 0);
    var b := CharRunEnd(line, a, '^');
    a < b && AllSpace(line[b..])
  }

  /** For a `\S+` that ends at `p`: the index just past
      `.dart:<digits>:<digits>: Error:`, when that text follows. */
  function CompileHeadEnd(line: string, p: nat): (r: Option<nat>)
    requires p <= |line|
    ensures r.Some? ==> p + 6 < r.value <= |line|
  {
    if !(1 <= p && NoSpace(line[..p]) && OccursAt(line, p, ".dart:")) then None
    else
      var j := DigitsEnd(line, p + 6);
      if !(p + 6 < j < |line| && line[j] == ':') then None
      else
        var k := DigitsEnd(line, j + 1);
        if j + 1 < k && OccursAt(line, k, CompileMarker) then Some(k + |CompileMarker|) else None
  }

  /** A head found at `p` follows a non-empty run without spaces, starts
      with `.dart:` and ends with ` Error:`. */
  lemma CompileHeadFacts(line: string, p: nat)
    requires p <= |line| && CompileHeadEnd(line, p).Some?
    ensures 1 <= p && NoSpace(line[..p]) && OccursAt(line, p, ".dart:")
    ensures var e := CompileHeadEnd(line, p).value;
      p + 6 < e <= |line| && line[e - |CompileMarker|..e] == CompileMarker
  {
  }

  /** `^\S+\.dart:\d+:\d+: Error:`: a compiler diagnostic. */
  predicate IsCompileStart(line: string) {
    exists p | 0 <= p <= |line| :: CompileHeadEnd(line, p).Some?
  }

  /** The capture of `^\S+\.dart:\d+:\d+: Error: (.+)` when `\S+` ends at `p`:
      the longest run of non-terminators after `: Error: `, if not empty. */
  function CompileGroupAt(line: string, p: nat): (r: Option<string>)
    requires p <= |line|
    ensures r.Some? ==> r.value != "" && NoLineBreak(r.value)
  {
    match CompileHeadEnd(line, p)
    case None => None
    case Some(e) =>
      if e + 1 < |line| && line[e] == ' ' && !IsLineTerminator(line[e + 1])
      then Some(line[e + 1..LineEnd(line, e + 1)])
      else None
  }

  /** The end of `\S+` the matcher settles on: it tries the longest first and
      backtracks, so this is the largest `q <= p` whose capture succeeds. */
  function CompileGroupIndex(line: string, p: nat): (r: Option<nat>)
    requires p <= |line|
    ensures r.Some? ==> r.value <= p && CompileGroupAt(line, r.value).Some?
  {
    if CompileGroupAt(line, p).Some? then Some(p)
    else if p == 0 then None
    else CompileGroupIndex(line, p - 1)
  }

  /** The index found is the largest with a capture: no index above it, and
      no index at all when none is found, has one. */
  lemma {:induction false} CompileGroupIndexIsLargest(line: string, p: nat, q: nat)
    requires p <= |line|
    ensures var r := CompileGroupIndex(line, p);
      q <= p && (r.None? || r.value < q) ==> CompileGroupAt(line, q).None?
    decreases p
  {
    if q < p && CompileGroupAt(line, p).None? {
      CompileGroupIndexMoves(line, p);
      CompileGroupIndexIsLargest(line, p - 1, q);
    }
  }

  lemma CompileGroupIndexMoves(line: string, p: nat)
    requires 0 < p <= |line| && CompileGroupAt(line, p).None?
    ensures CompileGroupIndex(line, p) == CompileGroupIndex(line, p - 1)
  {
  }

  /** `firstLine.match(/^\S+\.dart:\d+:\d+: Error: (.+)/)?.[1]`. */
  function CompileMessage(line: string): Option<string>
  {
    match CompileGroupIndex(line, |line|)
    case Some(p) => CompileGroupAt(line, p)
    case None => None
  }

  /** `(.+?) ═` after `Exception caught by ` at `i`, with a group of `len`
      characters. */
  predicate LibraryAt(line: string, i: nat, len: nat) {
    && OccursAt(line, i, LibraryLead)
    && 1 <= len
    && i + |LibraryLead| + len + 2 <= |line|
    && NoLineBreak(line[i + |LibraryLead|..i + |LibraryLead| + len])
    && line[i + |LibraryLead| + len] == ' '
    && line[i + |LibraryLead| + len + 1] == Box
  }

  /** The lazy `.+?`: the shortest group length from `len` on. */
  function ShortestLibrary(line: string, i: nat, len: nat): (r: Option<nat>)
    requires 1 <= len
    ensures r.Some? ==> len <= r.value && LibraryAt(line, i, r.value)
    ensures r.Some? ==> forall l | len <= l < r.value :: !LibraryAt(line, i, l)
    ensures r.None? ==> forall l | len <= l :: !LibraryAt(line, i, l)
    decreases |line| - len
  {
    if i + |LibraryLead| + len + 2 > |line| then None
    else if LibraryAt(line, i, len) then Some(len)
    else ShortestLibrary(line, i, len + 1)
  }

  /** `line.match(/Exception caught by (.+?) ═/)`: the leftmost start from `i`
      on, and at it the shortest group, as (start, group length). */
  function LibraryMatchFrom(line: string, i: nat): (r: Option<(nat, nat)>)
    ensures r.Some? ==> i <= r.value.0 && LibraryAt(line, r.value.0, r.value.1)
    ensures r.Some? ==> forall l | 1 <= l < r.value.1 :: !LibraryAt(line, r.value.0, l)
    ensures r.Some? ==> forall j, l | i <= j < r.value.0 :: !LibraryAt(line, j, l)
    ensures r.None? ==> forall j, l | i <= j :: !LibraryAt(line, j, l)
    decreases |line| - i
  {
    if i >= |line| then None
    else match ShortestLibrary(line, i, 1)
      case Some(len) => Some((i, len))
      case None => LibraryMatchFrom(line, i + 1)
  }

  /** The library a banner names, or `unknown library`. */
  function LibraryName(line: string): string {
    match LibraryMatchFrom(line, 0)
    case Some((i, len)) => line[i + |LibraryLead|..i + |LibraryLead| + len]
    case None => "unknown library"
  }

  // ---------------------------------------------------------------- the three operations

  /** A line opens a block when it is one of the four openings. */
  function IsErrorStart(line: string): (r: bool)
    ensures r ==> KindOf(line) != Unrecognised
    ensures KindOf(line) in {Unhandled, Compile, HotReload} ==> r
  {
    StartLineKinds(line);
    line == UnhandledHeader || IsBanner(line) || IsCompileStart(line) || line == HotReloadHeader
  }

  datatype BlockKind = Banner | Unhandled | Compile | HotReload | Unrecognised

  /** How a block is handled, judged from its first line in the order both
      continuation and parsing test it. */
  function KindOf(first: string): BlockKind {
    if IsBannerOpening(first) then Banner
    else if first == UnhandledHeader then Unhandled
    else if IsCompileStart(first) then Compile
    else if first == HotReloadHeader then HotReload
    else Unrecognised
  }

  /** Whether `line` extends the block accumulated so far. */
  function IsContinuation(line: string, linesSoFar: seq<string>): (r: bool)
    ensures |linesSoFar| == 0 ==> !r
    ensures |linesSoFar| > 0 && KindOf(linesSoFar[0]) == Unrecognised ==> !r
  {
    var first := if |linesSoFar| > 0 then linesSoFar[0] else "";
    var last := if |linesSoFar| > 0 then linesSoFar[|linesSoFar| - 1] else "";
    EmptyLineKind();
    match KindOf(first)
    case Banner =>
      if IsSeparator(line) then !HasSeparator(linesSoFar) else true
    case Unhandled =>
      || IsFrame(line)
      || IsDetail(line)
      || |linesSoFar| < 3
      || (line == "" && IsFrame(last))
    case Compile | HotReload =>
      || IsIndented(line)
      || IsCaretLine(line)
      || (line == "" && Trim(last) != "")
    case Unrecognised => false
  }

  /** The trimmed non-blank lines of a banner block from index `i`, stopping at
      the first closing rule or stack frame. */
  function BannerMessageLines(lines: seq<string>, i: nat): seq<string>
    decreases |lines| - i
  {
    if i >= |lines| || IsSeparator(lines[i]) || IsFrame(lines[i]) then []
    else (if Trim(lines[i]) != "" then [Trim(lines[i])] else []) + BannerMessageLines(lines, i + 1)
  }

  /** `lines.map(l => l.trim()).filter(l => l !== '')`. */
  function NonBlankTrimmed(lines: seq<string>): (r: seq<string>)
    ensures |r| <= |lines|
    ensures forall k | 0 <= k < |r| :: r[k] != "" && Trim(r[k]) == r[k]
  {
    if |lines| == 0 then []
    else
      var t := Trim(lines[0]);
      TrimOfTrimmed(t);
      (if t != "" then [t] else []) + NonBlankTrimmed(lines[1..])
  }

  /** The second line of an `Unhandled exception:` block, split at its first
      `": "` into (error type, message). */
  function SplitUnhandled(lines: seq<string>): (string, string) {
    var errorLine := if |lines| > 1 then Trim(lines[1]) else "";
    match IndexOf(errorLine, ": ")
    case Some(i) => (errorLine[..i], errorLine[i + 2..])
    case None => (if errorLine == "" then "UnknownError" else errorLine, "")
  }

  /** The record a finished block becomes. Total: an unrecognised block is an
      `UnknownError` with an empty message. */
  function Parse(lines: seq<string>): (r: ParsedError)
    ensures r.language == Language && r.rawLines == lines && r.stack == Join(lines, "\n")
    ensures var first := if |lines| > 0 then lines[0] else "";
      (match KindOf(first)
       case Unrecognised => r.errorType == "UnknownError" && r.message == ""
       case Compile => r.errorType == "CompileError" && r.message != ""
       case HotReload => r.errorType == "HotReloadRejected"
       case Banner => StartsWith(r.errorType, "FlutterError (")
       case Unhandled => r.errorType != "" || r.message != "")
  {
    var first := if |lines| > 0 then lines[0] else "";
    var kindAndMessage: (string, string) :=
      (match KindOf(first)
       case Banner =>
         ("FlutterError (" + LibraryName(first) + ")", Join(BannerMessageLines(lines, 1), " "))
       case Unhandled => SplitUnhandled(lines)
       case Compile =>
         CompileStartNotEmpty(first);
         ("CompileError", CompileMessage(first).GetOr(first))
       case HotReload =>
         ("HotReloadRejected", Join(NonBlankTrimmed(if |lines| > 0 then lines[1..] else []), " "))
       case Unrecognised => ("UnknownError", ""));
    ParsedError(Language, kindAndMessage.0, kindAndMessage.1, Join(lines, "\n"), lines)
  }

  // ---------------------------------------------------------------- kinds of opening lines

  lemma EmptyLineKind()
    ensures KindOf("") == Unrecognised
  {
  }

  lemma CompileStartNotEmpty(line: string)
    requires IsCompileStart(line)
    ensures line != ""
  {
  }

  /** Every opening line is handled, by continuation and by parsing, under
      its own kind: the four openings are mutually exclusive, and a full banner
      is recognised by the shorter banner test. */
  lemma StartLineKinds(line: string)
    ensures IsBanner(line) ==> KindOf(line) == Banner
    ensures line == UnhandledHeader ==> KindOf(line) == Unhandled
    ensures IsCompileStart(line) ==> KindOf(line) == Compile
    ensures line == HotReloadHeader ==> KindOf(line) == HotReload
  {
    if IsBanner(line) {
      BannerIsOpening(line);
    }
    if IsCompileStart(line) {
      CompileIsNotOpening(line);
    }
    if line == UnhandledHeader || line == HotReloadHeader {
      HeaderIsNotOpening(line);
      HeaderIsNotCompile(line);
    }
  }

  lemma BannerIsOpening(line: string)
    requires IsBanner(line)
    ensures IsBannerOpening(line)
  {
    var a, b :| 0 <= a < b < |line| && IsBannerAt(line, a, b);
    assert line[a..a + |Caption|] == line[a..a + |Caption| + 1][..|Caption|];
    assert IsBannerOpeningAt(line, a);
  }

  lemma CompileIsNotOpening(line: string)
    requires IsCompileStart(line)
    ensures !IsBannerOpening(line)
  {
    var p :| 0 <= p <= |line| && CompileHeadEnd(line, p).Some?;
    assert line[p..p + 6] == ".dart:";
    assert line[p] == '.';
    forall a | 0 <= a < |line|
      ensures !IsBannerOpeningAt(line, a)
    {
      assert p < a ==> line[p] == line[..a][p];
      assert a < p ==> line[a] == line[..p][a];
      assert a + |Caption| <= |line| ==> line[a] == line[a..a + |Caption|][0];
    }
  }

  lemma HeaderIsNotOpening(line: string)
    requires line == UnhandledHeader || line == HotReloadHeader
    ensures !IsBannerOpening(line)
  {
    forall a | 0 <= a < |line|
      ensures !IsBannerOpeningAt(line, a)
    {
      assert 1 <= a ==> line[0] == line[..a][0];
    }
  }

  lemma HeaderIsNotCompile(line: string)
    requires line == UnhandledHeader || line == HotReloadHeader
    ensures !IsCompileStart(line)
  {
    assert forall i | 0 <= i < |line| :: line[i] != '.';
    forall p | 0 <= p <= |line|
      ensures CompileHeadEnd(line, p).None?
    {
      assert OccursAt(line, p, ".dart:") ==> line[p] == line[p..p + 6][0];
    }
  }

  /** The caret test agrees with the plainer description: the trimmed line is
      one or more carets. */
  lemma CaretLineIsTrimmedCarets(line: string)
    ensures IsCaretLine(line) <==> (Trim(line) != "" && AllChar(Trim(line), '^'))
  {
    var a := TrimStartIndex(line, 0);
    var b := CharRunEnd(line, a, '^');
    var hi := TrimEndIndex(line, a, |line|);
    assert Trim(line) == line[a..hi];
    CaretRunEndsWhereTrimEnds(line, a, b, hi);
  }

  lemma CaretRunEndsWhereTrimEnds(line: string, a: nat, b: nat, hi: nat)
    requires a <= b <= |line| && AllChar(line[a..b], '^') && (b == |line| || line[b] != '^')
    requires a <= hi <= |line| && AllSpace(line[hi..|line|]) && (hi == a || !IsSpace(line[hi - 1]))
    ensures (a < b && AllSpace(line[b..])) <==> (a < hi && AllChar(line[a..hi], '^'))
  {
    assert !IsSpace('^');
    assert forall i | a <= i < b :: line[i] == line[a..b][i - a];
    assert forall i | hi <= i < |line| :: line[i] == line[hi..|line|][i - hi];
    assert AllSpace(line[b..]) <==> forall i | b <= i < |line| :: IsSpace(line[i]) by {
      assert forall i | b <= i < |line| :: line[i] == line[b..][i - b];
    }
    assert AllChar(line[a..hi], '^') <==> forall i | a <= i < hi :: line[i] == '^' by {
      assert forall i | a <= i < hi :: line[i] == line[a..hi][i - a];
    }
    var atHi := if hi < |line| then line[hi] else ' ';
    var beforeHi := if 0 < hi then line[hi - 1] else ' ';
    if a < b && AllSpace(line[b..]) {
      assert hi == b;
    }
    if a < hi && AllChar(line[a..hi], '^') {
      assert hi == b;
    }
  }

  // ---------------------------------------------------------------- reference shapes of the openings

  /** A banner as Flutter prints it: a rule, the caption, the library, a rule. */
  function BannerLine(rule: nat, library: string, closingRule: nat): string {
    Repeat(Box, rule) + Caption + " " + library + " " + Repeat(Box, closingRule)
  }

  /** The banner test accepts exactly the lines of that shape. */
  lemma BannerShape(line: string)
    ensures IsBanner(line) <==>
      exists rule, library, closingRule | 1 <= rule && 1 <= closingRule && library != "" && NoLineBreak(library)
        :: line == BannerLine(rule, library, closingRule)
  {
    if IsBanner(line) {
      var a, b :| 0 <= a < b < |line| && IsBannerAt(line, a, b);
      var library := line[a + |Caption| + 1..b];
      var closingRule := |line| - b - 1;
      assert line[..a] == Repeat(Box, a);
      assert line[b + 1..] == Repeat(Box, closingRule);
      assert line == line[..a] + line[a..a + |Caption| + 1] + library + [line[b]] + line[b + 1..];
      assert line == BannerLine(a, library, closingRule);
    }
    if exists rule, library, closingRule | 1 <= rule && 1 <= closingRule && library != "" && NoLineBreak(library)
        :: line == BannerLine(rule, library, closingRule) {
      var rule, library, closingRule :| 1 <= rule && 1 <= closingRule && library != "" && NoLineBreak(library)
        && line == BannerLine(rule, library, closingRule);
      BannerLineIsBanner(rule, library, closingRule);
    }
  }

  lemma BannerLineIsBanner(rule: nat, library: string, closingRule: nat)
    requires 1 <= rule && 1 <= closingRule && library != "" && NoLineBreak(library)
    ensures IsBannerAt(BannerLine(rule, library, closingRule), rule, rule + |Caption| + 1 + |library|)
    ensures IsBanner(BannerLine(rule, library, closingRule))
  {
    var line := BannerLine(rule, library, closingRule);
    var a := rule;
    var b := rule + |Caption| + 1 + |library|;
    assert line[..a] == Repeat(Box, rule);
    assert line[a..a + |Caption| + 1] == Caption + " ";
    assert line[a + |Caption| + 1..b] == library;
    assert line[b + 1..] == Repeat(Box, closingRule);
    assert IsBannerAt(line, a, b);
  }

  /** A compiler diagnostic as the Dart front end prints it. */
  function CompileLine(file: string, row: nat, column: nat, text: string): string {
    file + ".dart:" + DecimalString(row) + ":" + DecimalString(column) + ": Error: " + text
  }

  // ---------------------------------------------------------------- what parsing extracts

  /** The library is recovered from a banner whose name does not itself
      contain ` ═` (the lazy group stops at the first one). */
  lemma BannerLibraryRoundTrip(rule: nat, library: string, closingRule: nat, rest: seq<string>)
    requires 1 <= rule && 1 <= closingRule && library != "" && NoLineBreak(library)
    requires forall j | 0 <= j < |library| - 1 :: !(library[j] == ' ' && library[j + 1] == Box)
    ensures Parse([BannerLine(rule, library, closingRule)] + rest).errorType == "FlutterError (" + library + ")"
  {
    var line := BannerLine(rule, library, closingRule);
    BannerLineIsBanner(rule, library, closingRule);
    StartLineKinds(line);
    BannerLibraryMatch(rule, library, closingRule);
    assert ([line] + rest)[0] == line;
  }

  lemma BannerLibraryMatch(rule: nat, library: string, closingRule: nat)
    requires 1 <= rule && 1 <= closingRule && library != "" && NoLineBreak(library)
    requires forall j | 0 <= j < |library| - 1 :: !(library[j] == ' ' && library[j + 1] == Box)
    ensures LibraryName(BannerLine(rule, library, closingRule)) == library
  {
    var line := BannerLine(rule, library, closingRule);
    BannerLibraryAt(line, rule, library, closingRule);
    BannerLibraryShortest(line, rule, library, closingRule, rule + 1);
    BannerLibraryLeftmost(line, rule, library, closingRule);
    LibraryMatchIs(line, rule + 1, |library|);
  }

  /** The match the leftmost-then-shortest search settles on. */
  lemma LibraryMatchIs(line: string, start: nat, len: nat)
    requires LibraryAt(line, start, len)
    requires forall l | 1 <= l < len :: !LibraryAt(line, start, l)
    requires forall j, l | 0 <= j < start :: !LibraryAt(line, j, l)
    ensures LibraryMatchFrom(line, 0) == Some((start, len))
  {
    var m := LibraryMatchFrom(line, 0);
    assert m.Some?;
    assert m.value.0 == start;
    assert m.value.1 == len;
  }

  lemma BannerLibraryAt(line: string, rule: nat, library: string, closingRule: nat)
    requires 1 <= rule && 1 <= closingRule && library != "" && NoLineBreak(library)
    requires line == BannerLine(rule, library, closingRule)
    ensures LibraryAt(line, rule + 1, |library|)
    ensures line[rule + 1 + |LibraryLead|..rule + 1 + |LibraryLead| + |library|] == library
  {
    var start := rule + 1;
    var g := start + |LibraryLead|;
    assert line[rule..rule + |Caption| + 1] == Caption + " ";
    assert (Caption + " ")[1..] == LibraryLead;
    assert line[start..g] == line[rule..rule + |Caption| + 1][1..];
    assert line[start..g] == LibraryLead;
    assert line[g..g + |library|] == library;
    assert line[g + |library|] == ' ';
    assert line[g + |library| + 1] == Box;
  }

  lemma BannerLibraryShortest(line: string, rule: nat, library: string, closingRule: nat, start: nat)
    requires 1 <= rule && 1 <= closingRule && library != ""
    requires forall j | 0 <= j < |library| - 1 :: !(library[j] == ' ' && library[j + 1] == Box)
    requires line == BannerLine(rule, library, closingRule) && start == rule + 1
    ensures forall l | 1 <= l < |library| :: !LibraryAt(line, start, l)
  {
    var g := start + |LibraryLead|;
    assert line[g..g + |library|] == library;
    assert line[g + |library|] == ' ';
    forall l | 1 <= l < |library|
      ensures !LibraryAt(line, start, l)
    {
      assert line[g + l] == library[l];
      if l + 1 < |library| {
        assert line[g + l + 1] == library[l + 1];
      }
    }
  }

  lemma BannerLibraryLeftmost(line: string, rule: nat, library: string, closingRule: nat)
    requires line == BannerLine(rule, library, closingRule)
    ensures forall j, l | 0 <= j < rule + 1 :: !LibraryAt(line, j, l)
  {
    forall j, l | 0 <= j < rule + 1
      ensures !LibraryAt(line, j, l)
    {
      assert j < rule ==> line[j] == Box;
      assert j == rule ==> line[j] == ' ';
      assert j + |LibraryLead| <= |line| ==> line[j..j + |LibraryLead|][0] == line[j];
    }
  }

  /** The first index from `i` holding a closing rule or a stack frame. */
  function MessageStop(lines: seq<string>, i: nat): (r: nat)
    ensures i <= r && (r <= |lines| || r == i)
    ensures forall k | i <= k < r :: !IsSeparator(lines[k]) && !IsFrame(lines[k])
    ensures r < |lines| ==> IsSeparator(lines[r]) || IsFrame(lines[r])
    decreases |lines| - i
  {
    if i >= |lines| || IsSeparator(lines[i]) || IsFrame(lines[i]) then i
    else MessageStop(lines, i + 1)
  }

  /** A banner block's message is its trimmed non-blank lines after the
      banner, taken up to the first closing rule or stack frame. */
  lemma {:induction false} BannerMessageIsPrefix(lines: seq<string>, i: nat)
    requires i <= |lines|
    ensures BannerMessageLines(lines, i) == NonBlankTrimmed(lines[i..MessageStop(lines, i)])
    decreases |lines| - i
  {
    var stop := MessageStop(lines, i);
    if i < |lines| && !IsSeparator(lines[i]) && !IsFrame(lines[i]) {
      BannerMessageIsPrefix(lines, i + 1);
      assert MessageStop(lines, i + 1) == stop;
      assert lines[i..stop][1..] == lines[i + 1..stop];
    } else {
      assert lines[i..stop] == [];
    }
  }

  lemma BannerMessage(lines: seq<string>)
    requires |lines| > 0 && KindOf(lines[0]) == Banner
    ensures Parse(lines).message == Join(NonBlankTrimmed(lines[1..MessageStop(lines, 1)]), " ")
  {
    BannerMessageIsPrefix(lines, 1);
  }

  /** The error line of an `Unhandled exception:` block comes apart at its
      first `": "`: type and message put back together give the line, and the
      type holds no earlier `": "`. Without one, the whole line is the type. */
  lemma UnhandledSplit(lines: seq<string>)
    requires |lines| > 1 && lines[0] == UnhandledHeader
    ensures var r := Parse(lines);
      var errorLine := Trim(lines[1]);
      if exists j | 0 <= j <= |errorLine| :: OccursAt(errorLine, j, ": ") then
        && r.errorType + ": " + r.message == errorLine
        && forall j | 0 <= j < |r.errorType| :: !OccursAt(errorLine, j, ": ")
      else
        r.message == "" && r.errorType == (if errorLine == "" then "UnknownError" else errorLine)
  {
    StartLineKinds(lines[0]);
    var errorLine := Trim(lines[1]);
    match IndexOf(errorLine, ": ")
    case Some(i) =>
      assert errorLine == errorLine[..i] + errorLine[i..i + 2] + errorLine[i + 2..];
    case None =>
  }

  /** The message of a compiler diagnostic is the text after `: Error: `. */
  lemma CompileRoundTrip(file: string, row: nat, column: nat, text: string, rest: seq<string>)
    requires file != "" && NoSpace(file)
    requires text != "" && NoLineBreak(text)
    ensures IsErrorStart(CompileLine(file, row, column, text))
    ensures var r := Parse([CompileLine(file, row, column, text)] + rest);
      r.errorType == "CompileError" && r.message == text
  {
    var line := CompileLine(file, row, column, text);
    CompileMessageOfLine(line, file, DecimalString(row), DecimalString(column), text);
    StartLineKinds(line);
    assert ([line] + rest)[0] == line;
  }

  /** The capture of a diagnostic line is the text after `: Error: `. */
  lemma CompileMessageOfLine(line: string, file: string, rs: string, cs: string, text: string)
    requires line == file + ".dart:" + rs + ":" + cs + ": Error: " + text
    requires file != "" && NoSpace(file)
    requires rs != "" && AllDigits(rs) && cs != "" && AllDigits(cs)
    requires text != "" && NoLineBreak(text)
    ensures IsCompileStart(line) && CompileMessage(line) == Some(text)
  {
    var e := |file| + 6 + |rs| + 1 + |cs| + |CompileMarker|;
    CompileHeadOfLine(line, file, rs, cs, text);
    CompileNoDotBeforeSpace(line, file, rs, cs, text);
    assert line[e + 1..] == text;
    CompileGroupIs(line, |file|, e, text);
    var space := |file| + 5 + |rs| + 1 + |cs| + 2;
    CompileGroupIndexPastSpace(line, |file|, space, |line|);
  }

  /** The group after a head ending at `e` is the rest of a one-line text. */
  lemma CompileGroupIs(line: string, p: nat, e: nat, text: string)
    requires p <= |line| && CompileHeadEnd(line, p) == Some(e)
    requires e < |line| && line[e] == ' ' && line[e + 1..] == text
    requires text != "" && NoLineBreak(text)
    ensures CompileGroupAt(line, p) == Some(text)
  {
    assert line[e + 1] == text[0];
    assert NoLineBreak(line[e + 1..]);
    LineEndOfRun(line, e + 1);
    assert line[e + 1..LineEnd(line, e + 1)] == line[e + 1..];
  }

  /** Backtracking settles on `p` while no dot follows it: no longer `\S+`
      can end at a `.dart:`. */
  lemma {:induction false} CompileGroupIndexNoDot(line: string, p: nat, n: nat)
    requires p <= n < |line| && '.' !in line[p + 1..n + 1]
    requires CompileGroupAt(line, p).Some?
    ensures CompileGroupIndex(line, n) == Some(p)
    decreases n
  {
    if p < n {
      assert line[n] == line[p + 1..n + 1][n - p - 1];
      NoHeadWithoutDot(line, n);
      assert line[p + 1..n] == line[p + 1..n + 1][..n - p - 1];
      CompileGroupIndexNoDot(line, p, n - 1);
      CompileGroupIndexSkips(line, n);
    }
  }

  /** Nor can `\S+` reach past a space, so the index found there stands. */
  lemma {:induction false} CompileGroupIndexPastSpace(line: string, p: nat, space: nat, n: nat)
    requires p <= space <= n <= |line| && space < |line| && line[space] == ' '
    requires '.' !in line[p + 1..space + 1] && CompileGroupAt(line, p).Some?
    ensures CompileGroupIndex(line, n) == Some(p)
    decreases n
  {
    if space < n {
      NoHeadAfterSpace(line, n, space);
      CompileGroupIndexPastSpace(line, p, space, n - 1);
      CompileGroupIndexSkips(line, n);
    } else {
      CompileGroupIndexNoDot(line, p, n);
    }
  }

  /** Where no head is found, backtracking moves one place left. */
  lemma CompileGroupIndexSkips(line: string, n: nat)
    requires 0 < n <= |line| && CompileHeadEnd(line, n).None?
    ensures CompileGroupIndex(line, n) == CompileGroupIndex(line, n - 1)
  {
  }

  lemma CompileHeadOfLine(line: string, file: string, rs: string, cs: string, text: string)
    requires line == file + ".dart:" + rs + ":" + cs + ": Error: " + text
    requires file != "" && NoSpace(file)
    requires rs != "" && AllDigits(rs) && cs != "" && AllDigits(cs)
    ensures CompileHeadEnd(line, |file|) == Some(|file| + 6 + |rs| + 1 + |cs| + |CompileMarker|)
    ensures line[|file| + 6 + |rs| + 1 + |cs| + |CompileMarker|] == ' '
  {
    CompileLineSlices(line, file, rs, cs, text);
    CompileHeadAt(line, |file|, |file| + 6 + |rs|, |file| + 6 + |rs| + 1 + |cs|);
  }

  /** Where the parts of a diagnostic line sit. */
  lemma CompileLineSlices(line: string, file: string, rs: string, cs: string, text: string)
    requires line == file + ".dart:" + rs + ":" + cs + ": Error: " + text
    ensures var p := |file|;
      var j := p + 6 + |rs|;
      var k := j + 1 + |cs|;
      && k + |CompileMarker| < |line|
      && line[..p] == file && line[p..p + 6] == ".dart:" && line[p + 6..j] == rs
      && line[j] == ':' && line[j + 1..k] == cs
      && line[k..k + |CompileMarker|] == CompileMarker && line[k + |CompileMarker|] == ' '
  {
    var p := |file|;
    var j := p + 6 + |rs|;
    var k := j + 1 + |cs|;
    var tail := ": Error: " + text;
    assert line == file + ".dart:" + rs + ":" + cs + tail;
    assert line[k..] == tail;
    assert tail[..|CompileMarker|] == CompileMarker;
    assert tail[|CompileMarker|] == ' ';
  }

  /** The head `.dart:<digits>:<digits>: Error:` read from its parts. */
  lemma CompileHeadAt(line: string, p: nat, j: nat, k: nat)
    requires p + 6 < j && j + 1 < k && k + |CompileMarker| <= |line|
    requires NoSpace(line[..p]) && 1 <= p && line[p..p + 6] == ".dart:"
    requires AllDigits(line[p + 6..j]) && line[j] == ':' && AllDigits(line[j + 1..k])
    requires line[k..k + |CompileMarker|] == CompileMarker
    ensures CompileHeadEnd(line, p) == Some(k + |CompileMarker|)
  {
    assert OccursAt(line, p, ".dart:");
    assert OccursAt(line, k, CompileMarker);
    assert line[k] == line[k..k + |CompileMarker|][0];
    assert !IsDigit(line[j]) && !IsDigit(line[k]);
    DigitsEndOfRun(line, p + 6, j);
    DigitsEndOfRun(line, j + 1, k);
  }

  /** Between the file name and the space after `:<col>:` there is no dot. */
  lemma CompileNoDotBeforeSpace(line: string, file: string, rs: string, cs: string, text: string)
    requires line == file + ".dart:" + rs + ":" + cs + ": Error: " + text
    requires AllDigits(rs) && AllDigits(cs)
    ensures var space := |file| + 5 + |rs| + 1 + |cs| + 2;
      space < |line| && line[space] == ' ' && '.' !in line[|file| + 1..space + 1]
  {
    var p := |file|;
    var mid := "dart:" + rs + ":" + cs + ": ";
    assert line[p + 1..p + 1 + |mid|] == mid;
    assert forall i | 0 <= i < |mid| :: mid[i] != '.' by {
      assert forall i | 0 <= i < |rs| :: rs[i] != '.';
      assert forall i | 0 <= i < |cs| :: cs[i] != '.';
    }
    assert line[p + |mid|] == mid[|mid| - 1];
  }

  lemma NoHeadWithoutDot(line: string, q: nat)
    requires q <= |line| && (q == |line| || line[q] != '.')
    ensures CompileHeadEnd(line, q).None?
  {
  }

  lemma NoHeadAfterSpace(line: string, q: nat, i: nat)
    requires i < q <= |line| && IsSpace(line[i])
    ensures CompileHeadEnd(line, q).None?
  {
    assert line[..q][i] == line[i];
  }

  lemma DigitsEndOfRun(s: string, i: nat, j: nat)
    requires i <= j <= |s| && AllDigits(s[i..j]) && (j == |s| || !IsDigit(s[j]))
    ensures DigitsEnd(s, i) == j
    decreases j - i
  {
    if i < j {
      assert s[i] == s[i..j][0];
      assert s[i + 1..j] == s[i..j][1..];
      DigitsEndOfRun(s, i + 1, j);
    }
  }

  lemma LineEndOfRun(s: string, i: nat)
    requires i <= |s| && NoLineBreak(s[i..])
    ensures LineEnd(s, i) == |s|
    decreases |s| - i
  {
    if i < |s| {
      assert s[i] == s[i..][0];
      assert s[i + 1..] == s[i..][1..];
      LineEndOfRun(s, i + 1);
    }
  }

  /** Trimming and dropping blank lines leaves nothing exactly when every
      line is blank. */
  lemma {:induction false} NonBlankTrimmedEmpty(lines: seq<string>)
    ensures NonBlankTrimmed(lines) == [] <==> forall k | 0 <= k < |lines| :: AllSpace(lines[k])
  {
    if |lines| > 0 {
      NonBlankTrimmedEmpty(lines[1..]);
      assert forall k | 1 <= k < |lines| :: lines[k] == lines[1..][k - 1];
    }
  }

  lemma JoinEmpty(parts: seq<string>, sep: string)
    requires forall k | 0 <= k < |parts| :: parts[k] != ""
    ensures Join(parts, sep) == "" <==> parts == []
  {
    if |parts| > 1 {
      assert |Join(parts, sep)| >= |parts[0]|;
    }
  }

  /** A rejected hot reload has an empty message exactly when every line after
      the header is blank. */
  lemma HotReloadMessageEmpty(lines: seq<string>)
    requires |lines| > 0 && lines[0] == HotReloadHeader
    ensures Parse(lines).message == "" <==> forall k | 1 <= k < |lines| :: AllSpace(lines[k])
  {
    StartLineKinds(lines[0]);
    NonBlankTrimmedEmpty(lines[1..]);
    JoinEmpty(NonBlankTrimmed(lines[1..]), " ");
    assert forall k | 1 <= k < |lines| :: lines[k] == lines[1..][k - 1];
  }

  // ---------------------------------------------------------------- blocks as the recogniser accumulates them

  /** A block: an opening line, then lines each accepted against those before it. */
  predicate IsBlock(lines: seq<string>) {
    && |lines| > 0
    && IsErrorStart(lines[0])
    && forall k | 1 <= k < |lines| :: IsContinuation(lines[k], lines[..k])
  }

  /** A block grows by a line exactly when the per-kind rule accepts it:
      a banner block takes any line but a second closing rule; an
      `Unhandled exception:` block takes frames, detail lines, anything while
      it has fewer than three lines, and a blank line after a frame; a
      compiler or hot-reload block takes indented lines, caret lines, and a
      blank line after a non-blank one. */
  lemma {:induction false} BlockGrows(lines: seq<string>, line: string)
    requires IsBlock(lines)
    ensures IsBlock(lines + [line]) <==> IsContinuation(line, lines)
    ensures KindOf(lines[0]) == Banner ==>
      (IsBlock(lines + [line]) <==> !IsSeparator(line) || !HasSeparator(lines))
    ensures KindOf(lines[0]) == Unhandled ==>
      (IsBlock(lines + [line]) <==>
        IsFrame(line) || IsDetail(line) || |lines| < 3 || (line == "" && IsFrame(lines[|lines| - 1])))
    ensures KindOf(lines[0]) == Compile || KindOf(lines[0]) == HotReload ==>
      (IsBlock(lines + [line]) <==>
        IsIndented(line) || IsCaretLine(line) || (line == "" && Trim(lines[|lines| - 1]) != ""))
  {
    var ext := lines + [line];
    assert ext[0] == lines[0];
    assert ext[..|lines|] == lines;
    forall k | 1 <= k < |lines|
      ensures ext[..k] == lines[..k]
    {
    }
    if IsContinuation(line, lines) {
      assert forall k | 1 <= k < |ext| :: IsContinuation(ext[k], ext[..k]);
    }
    if IsBlock(ext) {
      assert IsContinuation(ext[|lines|], ext[..|lines|]);
    }
  }

  /** Within a banner block at most one line is a closing rule. */
  lemma BannerBlockOneSeparator(lines: seq<string>)
    requires IsBlock(lines) && IsBanner(lines[0])
    ensures forall i, j | 0 <= i < j < |lines| :: !(IsSeparator(lines[i]) && IsSeparator(lines[j]))
  {
    StartLineKinds(lines[0]);
    forall i, j | 0 <= i < j < |lines| && IsSeparator(lines[i])
      ensures !IsSeparator(lines[j])
    {
      assert lines[..j][0] == lines[0];
      assert lines[..j][i] == lines[i];
      assert HasSeparator(lines[..j]);
    }
  }

  /** After its first three lines, an `Unhandled exception:` block holds only
      frames, detail lines, and blank lines straight after a frame. */
  lemma UnhandledBlockShape(lines: seq<string>)
    requires IsBlock(lines) && lines[0] == UnhandledHeader
    ensures forall k | 3 <= k < |lines| ::
      IsFrame(lines[k]) || IsDetail(lines[k]) || (lines[k] == "" && IsFrame(lines[k - 1]))
  {
    StartLineKinds(lines[0]);
    forall k | 3 <= k < |lines|
      ensures IsFrame(lines[k]) || IsDetail(lines[k]) || (lines[k] == "" && IsFrame(lines[k - 1]))
    {
      assert lines[..k][0] == lines[0];
      assert lines[..k][k - 1] == lines[k - 1];
      assert IsContinuation(lines[k], lines[..k]);
    }
  }

  /** A compiler or hot-reload block continues only with indented lines,
      caret lines, and an empty line after a non-blank one; so it never holds
      two empty lines in a row. */
  lemma SnippetBlockShape(lines: seq<string>)
    requires IsBlock(lines) && (IsCompileStart(lines[0]) || lines[0] == HotReloadHeader)
    ensures forall k | 1 <= k < |lines| ::
      IsIndented(lines[k]) || IsCaretLine(lines[k]) || (lines[k] == "" && Trim(lines[k - 1]) != "")
    ensures forall k | 1 <= k < |lines| :: !(lines[k - 1] == "" && lines[k] == "")
  {
    StartLineKinds(lines[0]);
    forall k | 1 <= k < |lines|
      ensures IsIndented(lines[k]) || IsCaretLine(lines[k]) || (lines[k] == "" && Trim(lines[k - 1]) != "")
    {
      assert lines[..k][0] == lines[0];
      assert lines[..k][k - 1] == lines[k - 1];
      assert IsContinuation(lines[k], lines[..k]);
    }
    forall k | 1 <= k < |lines|
      ensures !(lines[k - 1] == "" && lines[k] == "")
    {
      if lines[k] == "" {
        assert !IsIndented(lines[k]);
        assert !IsCaretLine(lines[k]);
      }
    }
  }

  // ---------------------------------------------------------------- the banner that never closes

  /** As written, a banner block absorbs every line after its closing rule
      that is not itself a rule, so the opening of the next Flutter error is
      swallowed instead of starting a block of its own. */
  lemma BannerSwallowsNextBanner()
    ensures var first := BannerLine(3, "widgets library", 3);
      var next := BannerLine(3, "rendering library", 3);
      var closing := Repeat(Box, 10);
      && IsErrorStart(next)
      && IsBlock([first, closing])
      && IsContinuation(next, [first, closing])
  {
    BannerLineIsBanner(3, "widgets library", 3);
    BannerLineIsBanner(3, "rendering library", 3);
    BannerAfterClosingRule(BannerLine(3, "widgets library", 3), BannerLine(3, "rendering library", 3), Repeat(Box, 10));
  }

  /** The same for any two banners and any closing rule. */
  lemma BannerAfterClosingRule(first: string, next: string, closing: string)
    requires IsBanner(first) && IsBanner(next) && IsSeparator(closing)
    ensures IsErrorStart(next) && IsBlock([first, closing]) && IsContinuation(next, [first, closing])
  {
    StartLineKinds(first);
    StartLineKinds(next);
    BannerIsNotSeparator(first);
    BannerIsNotSeparator(next);
    assert [first, closing][..1] == [first];
    assert !HasSeparator([first]);
  }

  lemma BannerIsNotSeparator(line: string)
    requires IsBanner(line)
    ensures !IsSeparator(line)
  {
    var a, b :| 0 <= a < b < |line| && IsBannerAt(line, a, b);
    assert line[b] == ' ';
  }

  /** The closing rule as intended: a banner block continues until it has
      taken its first closing rule, and then ends. It accepts only what the
      rule as written accepts, and refuses more only after a banner block's
      closing rule. */
  function IsContinuationClosing(line: string, linesSoFar: seq<string>): (r: bool)
    ensures r ==> IsContinuation(line, linesSoFar)
    ensures IsContinuation(line, linesSoFar) && !r ==>
      |linesSoFar| > 0 && KindOf(linesSoFar[0]) == Banner && HasSeparator(linesSoFar) && !IsSeparator(line)
    ensures |linesSoFar| > 0 && KindOf(linesSoFar[0]) == Banner && HasSeparator(linesSoFar) ==> !r
  {
    var first := if |linesSoFar| > 0 then linesSoFar[0] else "";
    if KindOf(first) == Banner then !HasSeparator(linesSoFar) else IsContinuation(line, linesSoFar)
  }

  predicate IsClosingBlock(lines: seq<string>) {
    && |lines| > 0
    && IsErrorStart(lines[0])
    && forall k | 1 <= k < |lines| :: IsContinuationClosing(lines[k], lines[..k])
  }

  /** With the intended rule a closing rule can only be a banner block's last
      line, and the next banner after it is refused, so it opens a new block. */
  lemma ClosingBannerEndsAtSeparator(lines: seq<string>, next: string)
    requires IsClosingBlock(lines) && IsBanner(lines[0])
    ensures forall k | 0 <= k < |lines| - 1 :: !IsSeparator(lines[k])
    ensures IsSeparator(lines[|lines| - 1]) ==> !IsContinuationClosing(next, lines)
  {
    StartLineKinds(lines[0]);
    forall k | 0 <= k < |lines| - 1
      ensures !IsSeparator(lines[k])
    {
      assert lines[..k + 1][0] == lines[0];
      assert lines[..k + 1][k] == lines[k];
      assert IsContinuationClosing(lines[k + 1], lines[..k + 1]);
    }
  }
}

=== FILE: go_parser.dfy ===
/** The Go stderr recogniser: a block opens on a `panic:` line or on the
    net/http server's recovered-panic log line, and extends over goroutine
    headers, tab-indented source positions, blank lines, call lines and
    `created by` lines. */
module GoParser {
  import opened Wrappers
  import opened Text
  import opened Reports

  const Language := "go"
  const PanicPrefix := "panic:"
  const PanicMessagePrefix := "panic: "

  /** What net/http logs before the remote address of a panicking handler. */
  const ServingMarker := "http: panic serving "

  // ---------------------------------------------------------------- line shapes

  /** `http: panic serving .+: ` with the marker at `i` and the `.+` of
      `len` characters. */
  predicate ServingAt(line: string, i: nat, len: nat) {
    && OccursAt(line, i, ServingMarker)
    && 1 <= len
    && i + |ServingMarker| + len + 2 <= |line|
    && NoLineBreak(line[i + |ServingMarker|..i + |ServingMarker| + len])
    && line[i + |ServingMarker| + len] == ':'
    && line[i + |ServingMarker| + len + 1] == ' '
  }

  /** `/http: panic serving .+: /` somewhere in the line. */
  predicate IsServingPanic(line: string) {
    exists i, len | 0 <= i < |line| && 0 <= len <= |line| :: ServingAt(line, i, len)
  }

  /** `^\S+\.\S+\(` with the dot at `p` and the parenthesis at `q`. */
  predicate IsCallAt(line: string, p: int, q: int) {
    1 <= p && p + 2 <= q < |line| && NoSpace(line[..q]) && line[p] == '.' && line[q] == '('
  }

  /** `^\S+\.\S+\(`: a call line such as `main.main()`. */
  predicate IsCall(line: string) {
    exists p, q | 0 <= p < q < |line| :: IsCallAt(line, p, q)
  }

  // ---------------------------------------------------------------- the three operations

  function IsErrorStart(line: string): (r: bool)
    ensures StartsWith(line, PanicPrefix) ==> r
    ensures IsServingPanic(line) ==> r
    ensures !StartsWith(line, PanicPrefix) && !IsServingPanic(line) ==> !r
  {
    StartsWith(line, PanicPrefix) || IsServingPanic(line)
  }

  /** Whether `line` extends a Go block; the lines so far play no part. A
      second `panic: ` line is never taken in, so it opens a block of its
      own. */
  function IsContinuation(line: string, linesSoFar: seq<string>): (r: bool)
    ensures StartsWith(line, PanicMessagePrefix) ==> !r
  {
    PanicLineIsNotCall(line);
    || StartsWith(line, "goroutine ")
    || StartsWith(line, "\t")
    || line == ""
    || IsCall(line)
    || StartsWith(line, "created by ")
  }

  /** `http: panic serving .+?: (.+)` at `i` with a lazy group of `len`
      characters: the `: ` must be followed by at least one character `.`
      accepts. */
  predicate ServingGroupAt(line: string, i: nat, len: nat) {
    && ServingAt(line, i, len)
    && i + |ServingMarker| + len + 2 < |line|
    && !IsLineTerminator(line[i + |ServingMarker| + len + 2])
  }

  /** The lazy `.+?`: the shortest group length from `len` on. */
  function ShortestServing(line: string, i: nat, len: nat): (r: Option<nat>)
    requires 1 <= len
    ensures r.Some? ==> len <= r.value && ServingGroupAt(line, i, r.value)
    ensures r.Some? ==> forall l: nat | len <= l < r.value :: !ServingGroupAt(line, i, l)
    ensures r.None? ==> forall l: nat | len <= l :: !ServingGroupAt(line, i, l)
    decreases |line| - len
  {
    if i + |ServingMarker| + len + 2 >= |line| then None
    else if ServingGroupAt(line, i, len) then Some(len)
    else ShortestServing(line, i, len + 1)
  }

  /** The leftmost start from `i` on, and at it the shortest group. */
  function ServingMatchFrom(line: string, i: nat): (r: Option<(nat, nat)>)
    ensures r.Some? ==> i <= r.value.0 && ServingGroupAt(line, r.value.0, r.value.1)
    ensures r.Some? ==> forall l: nat | 1 <= l < r.value.1 :: !ServingGroupAt(line, r.value.0, l)
    ensures r.Some? ==> forall j: nat, l: nat | i <= j < r.value.0 :: !ServingGroupAt(line, j, l)
    ensures r.None? ==> forall j: nat, l: nat | i <= j :: !ServingGroupAt(line, j, l)
    decreases |line| - i
  {
    if i >= |line| then None
    else match ShortestServing(line, i, 1)
      case Some(len) => Some((i, len))
      case None => ServingMatchFrom(line, i + 1)
  }

  /** `firstLine.match(/http: panic serving .+?: (.+)/)?.[1]`: the greedy
      `(.+)` runs to the first line terminator. */
  function ServingMessage(line: string): (r: Option<string>)
    ensures r.Some? ==> r.value != "" && NoLineBreak(r.value)
  {
    match ServingMatchFrom(line, 0)
    case Some((i, len)) =>
      var start := i + |ServingMarker| + len + 2;
      Some(line[start..LineEnd(line, start)])
    case None => None
  }

  /** The record a finished block becomes; a Go block is always a `panic`. */
  function Parse(lines: seq<string>): (r: ParsedError)
    ensures r.language == Language && r.errorType == "panic"
    ensures r.rawLines == lines && r.stack == Join(lines, "\n")
    ensures |lines| == 0 ==> r.message == ""
    ensures |lines| > 0 ==> |r.message| <= |lines[0]|
  {
    var first := if |lines| > 0 then lines[0] else "";
    var message :=
      match ServingMessage(first)
      case Some(m) => m
      case None =>
        if StartsWith(first, PanicMessagePrefix) then first[|PanicMessagePrefix|..] else first;
    ParsedError(Language, "panic", message, Join(lines, "\n"), lines)
  }

  // ---------------------------------------------------------------- properties

  /** A `panic: ` line has none of the continuation shapes; in particular
      it cannot pass for a call line, as its first space comes before any
      dot. */
  lemma PanicLineIsNotCall(line: string)
    ensures StartsWith(line, PanicMessagePrefix) ==>
      && !IsCall(line) && line != "" && !StartsWith(line, "goroutine ")
      && !StartsWith(line, "\t") && !StartsWith(line, "created by ")
  {
    if StartsWith(line, PanicMessagePrefix) {
      assert line[0] == line[..|PanicMessagePrefix|][0] == 'p';
      forall p, q | 0 <= p < q < |line|
        ensures !IsCallAt(line, p, q)
      {
        if q > 6 {
          assert line[..q][6] == line[6] == PanicMessagePrefix[6];
        } else {
          assert line[p] == line[..|PanicMessagePrefix|][p] == PanicMessagePrefix[p];
        }
      }
    }
  }

  /** A recovered-panic log line: any lead, the marker, a non-empty address on
      one line, `: ` and anything after. */
  function ServingLine(lead: string, address: string, rest: string): string {
    lead + ServingMarker + address + ": " + rest
  }

  /** A line opens a Go block exactly when it starts with `panic:` or is
      shaped like a recovered-panic log line. */
  lemma ErrorStartShape(line: string)
    ensures IsErrorStart(line) <==>
      || StartsWith(line, PanicPrefix)
      || exists lead, address, rest | address != "" && NoLineBreak(address) :: line == ServingLine(lead, address, rest)
  {
    if IsServingPanic(line) {
      var i, len :| 0 <= i < |line| && 0 <= len <= |line| && ServingAt(line, i, len);
      ServingAtSplits(line, i, len);
    }
    if exists lead, address, rest | address != "" && NoLineBreak(address) :: line == ServingLine(lead, address, rest) {
      var lead, address, rest :| address != "" && NoLineBreak(address) && line == ServingLine(lead, address, rest);
      ServingLineMatches(lead, address, rest);
    }
  }

  /** A marker match splits the line into lead, address and the rest. */
  lemma ServingAtSplits(line: string, i: nat, len: nat)
    requires ServingAt(line, i, len)
    ensures var g := i + |ServingMarker|;
      line == ServingLine(line[..i], line[g..g + len], line[g + len + 2..])
  {
    var g := i + |ServingMarker|;
    assert line[i..g] == ServingMarker;
    assert line[g + len..g + len + 2] == ": ";
    assert line == line[..i] + line[i..g] + line[g..g + len] + line[g + len..g + len + 2] + line[g + len + 2..];
  }

  /** Every recovered-panic log line matches the marker pattern at its lead. */
  lemma ServingLineMatches(lead: string, address: string, rest: string)
    requires address != "" && NoLineBreak(address)
    ensures ServingAt(ServingLine(lead, address, rest), |lead|, |address|)
    ensures IsServingPanic(ServingLine(lead, address, rest))
  {
    var line := ServingLine(lead, address, rest);
    var i := |lead|;
    var g := i + |ServingMarker|;
    assert line[i..g] == ServingMarker;
    assert line[g..g + |address|] == address;
    assert line[g + |address|] == ':' && line[g + |address| + 1] == ' ';
    assert 0 <= i < |line| && |address| <= |line| && ServingAt(line, i, |address|);
  }

  lemma ContinuationIgnoresHistory(line: string, a: seq<string>, b: seq<string>)
    ensures IsContinuation(line, a) == IsContinuation(line, b)
  {
  }

  /** No occurrence of the marker can begin where there is no `h`. */
  lemma NoMarkerWithoutH(line: string, from: nat)
    requires forall k | 0 <= k < |line| :: line[k] == 'h' ==> k >= from
    ensures forall j: nat, l: nat | j < from :: !ServingGroupAt(line, j, l)
  {
    forall j: nat, l: nat | j < from
      ensures !ServingGroupAt(line, j, l)
    {
      OccursAtHead(line, j, ServingMarker);
    }
  }

  /** A plain panic line gives the text after `panic: ` as the message, as
      long as that text does not itself hold a recovered-panic log line. */
  lemma PanicRoundTrip(text: string, rest: seq<string>)
    requires forall j: nat, l: nat :: !ServingGroupAt(PanicMessagePrefix + text, j, l)
    ensures IsErrorStart(PanicMessagePrefix + text)
    ensures Parse([PanicMessagePrefix + text] + rest).message == text
  {
    var line := PanicMessagePrefix + text;
    assert line[..|PanicPrefix|] == PanicPrefix;
    assert ServingMatchFrom(line, 0).None?;
    assert ([line] + rest)[0] == line;
  }

  /** The text after a recovered-panic log line's `: ` is the message, given
      a timestamp-like lead with no `h` and an address holding no `": "`. */
  lemma ServingRoundTrip(lead: string, address: string, text: string, rest: seq<string>)
    requires forall k | 0 <= k < |lead| :: lead[k] != 'h'
    requires address != "" && NoLineBreak(address)
    requires forall k | 0 <= k < |address| - 1 :: !(address[k] == ':' && address[k + 1] == ' ')
    requires text != "" && NoLineBreak(text)
    ensures IsErrorStart(lead + ServingMarker + address + ": " + text)
    ensures Parse([lead + ServingMarker + address + ": " + text] + rest).message == text
  {
    var line := lead + ServingMarker + address + ": " + text;
    var i := |lead|;
    var g := i + |ServingMarker|;
    var start := g + |address| + 2;
    assert line[i..g] == ServingMarker;
    assert line[g..g + |address|] == address;
    assert line[g + |address|] == ':' && line[g + |address| + 1] == ' ';
    assert line[start..] == text;
    assert line[start] == text[0];
    assert ServingGroupAt(line, i, |address|);
    assert ServingAt(line, i, |address|);
    ServingShortest(line, lead, address, text, i);
    NoMarkerWithoutH(line, i);
    ServingMatchIs(line, i, |address|);
    LineEndOfText(line, start);
    assert ([line] + rest)[0] == line;
  }

  lemma ServingShortest(line: string, lead: string, address: string, text: string, i: nat)
    requires line == lead + ServingMarker + address + ": " + text && i == |lead|
    requires forall k | 0 <= k < |address| - 1 :: !(address[k] == ':' && address[k + 1] == ' ')
    ensures forall l: nat | 1 <= l < |address| :: !ServingGroupAt(line, i, l)
  {
    var g := i + |ServingMarker|;
    assert line[g..g + |address|] == address;
    assert line[g + |address|] == ':';
    forall l: nat | 1 <= l < |address|
      ensures !ServingGroupAt(line, i, l)
    {
      assert line[g + l] == address[l];
      if l + 1 < |address| {
        assert line[g + l + 1] == address[l + 1];
      }
    }
  }

  lemma ServingMatchIs(line: string, start: nat, len: nat)
    requires ServingGroupAt(line, start, len)
    requires forall l: nat | 1 <= l < len :: !ServingGroupAt(line, start, l)
    requires forall j: nat, l: nat | j < start :: !ServingGroupAt(line, j, l)
    ensures ServingMatchFrom(line, 0) == Some((start, len))
  {
    var m := ServingMatchFrom(line, 0);
    assert m.Some?;
    assert m.value.0 == start;
    assert m.value.1 == len;
  }

  lemma {:induction false} LineEndOfText(s: string, i: nat)
    requires i <= |s| && NoLineBreak(s[i..])
    ensures LineEnd(s, i) == |s|
    decreases |s| - i
  {
    if i < |s| {
      assert s[i] == s[i..][0];
      assert s[i + 1..] == s[i..][1..];
      LineEndOfText(s, i + 1);
    }
  }

  /** No group fits when the line ends before a character can follow `: `. */
  lemma NoGroupInShortLine(line: string)
    requires |line| <= |ServingMarker| + 3
    ensures ServingMatchFrom(line, 0).None?
  {
  }

  /** A line that opens a block because `: ` follows the address, but with
      nothing after it, keeps the whole line as its message. */
  lemma ServingWithoutText()
    ensures var line := "http: panic serving x: ";
      IsErrorStart(line) && Parse([line]).message == line
  {
    var line := "http: panic serving x: ";
    assert line[0..|ServingMarker|] == ServingMarker;
    assert ServingAt(line, 0, 1);
    NoGroupInShortLine(line);
    assert !StartsWith(line, PanicMessagePrefix) by {
      assert line[0] != PanicMessagePrefix[0];
    }
  }

  /** `panic:` without the space opens a block, and the line is kept whole. */
  lemma PanicWithoutSpace()
    ensures IsErrorStart("panic:x") && Parse(["panic:x"]).message == "panic:x"
  {
    var line := "panic:x";
    assert line[..|PanicPrefix|] == PanicPrefix;
    NoGroupInShortLine(line);
    assert !StartsWith(line, PanicMessagePrefix) by {
      assert line[6] != PanicMessagePrefix[6];
    }
  }

  /** The later lines of a typical five-line Go panic each continue the block. */
  lemma GoPanicContinuations(lines: seq<string>)
    requires lines == ["panic: nil pointer dereference", "", "goroutine 1 [running]:",
                       "main.main()", "\t/app/main.go:10 +0x20"]
    ensures forall k | 1 <= k < |lines| :: IsContinuation(lines[k], lines[..k])
  {
    assert lines[2][..10] == "goroutine ";
    assert IsCallAt(lines[3], 4, 9);
    assert lines[4][..1] == "\t";
  }

  /** A typical five-line Go panic: its first line opens a block, every later
      line continues it, and the message is the panic text. */
  lemma GoPanicExample(lines: seq<string>)
    requires lines == ["panic: nil pointer dereference", "", "goroutine 1 [running]:",
                       "main.main()", "\t/app/main.go:10 +0x20"]
    ensures IsErrorStart(lines[0])
    ensures forall k | 1 <= k < |lines| :: IsContinuation(lines[k], lines[..k])
    ensures Parse(lines).message == "nil pointer dereference"
  {
    GoPanicContinuations(lines);
    GoPanicMessage(lines);
  }

  /** Whatever follows it, the typical panic line opens a block whose
      message is the panic text. */
  lemma GoPanicMessage(lines: seq<string>)
    requires |lines| > 0 && lines[0] == "panic: nil pointer dereference"
    ensures IsErrorStart(lines[0])
    ensures Parse(lines).message == "nil pointer dereference"
  {
    assert lines[0][..7] == PanicMessagePrefix;
    assert lines[0][7..] == "nil pointer dereference";
    assert lines[0] == lines[0][..7] + lines[0][7..];
    GoPanicLineHasNoServingLine();
    PanicRoundTrip("nil pointer dereference", lines[1..]);
    assert [lines[0]] + lines[1..] == lines;
  }

  /** The typical panic line holds no `h`, so no recovered-panic log
      line. */
  lemma GoPanicLineHasNoServingLine()
    ensures forall j: nat, l: nat :: !ServingGroupAt(PanicMessagePrefix + "nil pointer dereference", j, l)
  {
    var line := PanicMessagePrefix + "nil pointer dereference";
    assert forall k | 0 <= k < |line| :: line[k] != 'h';
    NoMarkerWithoutH(line, |line|);
  }
}

=== FILE: reporter.dfy ===
/** The in-process error reporter: it fills in its configuration from
    defaults, turns what it is given into an error report, and (when
    enabled) posts the report to the relay without waiting. A module-level
    instance is set by `initErrorReporter` and read by `getErrorReporter`
    and `reportError`.

    The clock, the process environment and the relay post are outside the
    model: the current time and `NODE_ENV` are parameters, and `Report`
    yields the report that would be posted. */
module Reporter {
  import opened Wrappers
  import opened Reports

  const DefaultRelayUrl := "http://localhost:9100"
  const DefaultTimeout := 1000
  const DefaultMaxStackLength := 2000

  /** The options a caller may pass; any of them may be missing. */
  datatype ReporterConfig = ReporterConfig(
    relayUrl: Option<string>,
    enabled: Option<bool>,
    timeout: Option<int>,
    maxStackLength: Option<int>,
    debug: Option<bool>)

  /** The configuration in force, every option filled in. */
  datatype Settings = Settings(relayUrl: string, enabled: bool, timeout: int, maxStackLength: int, debug: bool)

  /** The constructor: a falsy URL, timeout, stack limit or debug flag takes
      its default, so a timeout or limit of 0 is replaced too; `enabled` is
      taken as given when present, and otherwise holds exactly in a
      development environment. */
  function Resolve(config: ReporterConfig, nodeEnv: Option<string>): (s: Settings)
    ensures s.relayUrl != "" && s.timeout != 0 && s.maxStackLength != 0
    ensures config.enabled.Some? ==> s.enabled == config.enabled.value
    ensures config.enabled.None? ==> (s.enabled <==> nodeEnv == Some("development"))
  {
    Settings(
      if Truthy(config.relayUrl) then config.relayUrl.value else DefaultRelayUrl,
      match config.enabled
        case Some(b) => b
        case None => nodeEnv == Some("development"),
      if config.timeout.Some? && config.timeout.value != 0 then config.timeout.value else DefaultTimeout,
      if config.maxStackLength.Some? && config.maxStackLength.value != 0 then config.maxStackLength.value
      else DefaultMaxStackLength,
      config.debug == Some(true))
  }

  /** The options that name every setting explicitly. */
  function Explicit(s: Settings): ReporterConfig {
    ReporterConfig(Some(s.relayUrl), Some(s.enabled), Some(s.timeout), Some(s.maxStackLength), Some(s.debug))
  }

  /** Resolved settings have no falsy option left, so passing them back in
      gives the same settings whatever the environment. */
  lemma ResolveIsIdempotent(config: ReporterConfig, nodeEnv: Option<string>, otherEnv: Option<string>)
    ensures var s := Resolve(config, nodeEnv);
      s.relayUrl != "" && s.timeout != 0 && s.maxStackLength != 0
      && Resolve(Explicit(s), otherEnv) == s
  {
  }

  /** Each option is settled on its own: a falsy one takes its default and a
      truthy one is kept as given (a negative number is truthy), whatever the
      other options are. */
  lemma ResolveEachOption(config: ReporterConfig, nodeEnv: Option<string>)
    ensures var s := Resolve(config, nodeEnv);
      && (!Truthy(config.relayUrl) ==> s.relayUrl == DefaultRelayUrl)
      && (Truthy(config.relayUrl) ==> s.relayUrl == config.relayUrl.value)
      && (config.timeout.None? || config.timeout == Some(0) ==> s.timeout == DefaultTimeout)
      && (config.timeout.Some? && config.timeout.value != 0 ==> s.timeout == config.timeout.value)
      && (config.maxStackLength.None? || config.maxStackLength == Some(0) ==> s.maxStackLength == DefaultMaxStackLength)
      && (config.maxStackLength.Some? && config.maxStackLength.value != 0 ==> s.maxStackLength == config.maxStackLength.value)
      && (s.debug <==> config.debug == Some(true))
  {
  }

  /** What `report` may be given: an `Error` (which may carry extra
      properties such as a `timestamp`), or an object already shaped like an
      error report. */
  datatype Reportable =
    | ErrorObject(message: string, stack: Option<string>, timestamp: Option<string>)
    | ReportObject(report: ErrorReport)

  /** `isErrorReport`: the value has both a `message` and a `timestamp`
      key. */
  predicate IsErrorReport(v: Reportable) {
    v.ReportObject? || v.timestamp.Some?
  }

  /** The report a value that passes `isErrorReport` already is. */
  function AsReport(v: Reportable): ErrorReport
    requires IsErrorReport(v)
  {
    match v
    case ReportObject(r) => r
    case ErrorObject(m, st, ts) => ErrorReport(m, st, None, ts.value, None)
  }

  /** `normalizeError`: a report passes through unchanged, without
      truncation; an `Error` gives its message, its stack (empty when
      missing) cut to the limit, the given source and the current time. */
  function Normalize(v: Reportable, source: Option<string>, maxStackLength: int, now: string): (r: ErrorReport)
    ensures IsErrorReport(v) ==> r == AsReport(v)
    ensures !IsErrorReport(v) ==>
      && r.message == v.message && r.source == source && r.timestamp == now && r.context == None
      && r.stack.Some?
      && (Truthy(v.stack) && |v.stack.value| <= maxStackLength ==> r.stack == v.stack)
      && (!Truthy(v.stack) && maxStackLength >= 0 ==> r.stack == Some(""))
      && (!Truthy(v.stack) && maxStackLength < 0 ==> r.stack == Some(TruncationMarker))
      && (Truthy(v.stack) && |v.stack.value| > maxStackLength ==>
            r.stack.value == Prefix(v.stack.value, maxStackLength) + TruncationMarker)
  {
    if IsErrorReport(v) then AsReport(v)
    else
      var stack := if Truthy(v.stack) then v.stack.value else "";
      ErrorReport(v.message, Some(TruncateStack(stack, maxStackLength)), source, now, None)
  }

  /** A normalised report is left alone by a second normalisation. */
  lemma NormalizeIsIdempotent(v: Reportable, source: Option<string>, source2: Option<string>,
                              maxStackLength: int, now: string, later: string)
    ensures var r := Normalize(v, source, maxStackLength, now);
      Normalize(ReportObject(r), source2, maxStackLength, later) == r
  {
  }

  /** A report object is posted exactly as given, even with a stack longer
      than the limit. */
  lemma ReportObjectIsNotTruncated(r: ErrorReport, source: Option<string>, maxStackLength: int, now: string)
    requires r.stack.Some? && |r.stack.value| > maxStackLength
    ensures Normalize(ReportObject(r), source, maxStackLength, now).stack == r.stack
  {
  }

  /** An `Error`'s stack is posted with at most the limit plus the marker. */
  lemma NormalizedStackIsBounded(v: Reportable, source: Option<string>, maxStackLength: nat, now: string)
    requires !IsErrorReport(v)
    ensures var r := Normalize(v, source, maxStackLength, now);
      |r.stack.value| <= maxStackLength + |TruncationMarker|
  {
    var stack := if Truthy(v.stack) then v.stack.value else "";
    var t := TruncateStack(stack, maxStackLength);
    assert |stack| > maxStackLength ==> |t| == maxStackLength + |TruncationMarker|;
  }

  /** A reporter is its resolved settings. */
  datatype ErrorReporter = ErrorReporter(settings: Settings)

  function NewReporter(config: ReporterConfig, nodeEnv: Option<string>): (r: ErrorReporter)
    ensures r.settings == Resolve(config, nodeEnv)
  {
    ErrorReporter(Resolve(config, nodeEnv))
  }

  /** `report(error, source)`: the report to post, or nothing when the
      reporter is disabled. */
  function Report(reporter: ErrorReporter, v: Reportable, source: Option<string>, now: string): (r: Option<ErrorReport>)
    ensures r.Some? <==> reporter.settings.enabled
    ensures r.Some? ==> r.value == Normalize(v, source, reporter.settings.maxStackLength, now)
  {
    if !reporter.settings.enabled then None
    else Some(Normalize(v, source, reporter.settings.maxStackLength, now))
  }

  // ---------------------------------------------------------------- the global instance

  const NotInitialized := "ErrorReporter not initialized. Call initErrorReporter() first."

  /** The module-level instance, `None` until the first initialisation. */
  datatype Global = Global(instance: Option<ErrorReporter>)

  const Uninitialized := Global(None)

  /** `initErrorReporter(config)`: builds a reporter, makes it the global
      instance, and returns it. */
  function InitErrorReporter(g: Global, config: ReporterConfig, nodeEnv: Option<string>): (r: (Global, ErrorReporter))
    ensures r.0.instance == Some(r.1)
    ensures r.1 == NewReporter(config, nodeEnv)
  {
    var reporter := NewReporter(config, nodeEnv);
    (Global(Some(reporter)), reporter)
  }

  /** `getErrorReporter()`: the global instance, or the error it throws
      before any initialisation. */
  function GetErrorReporter(g: Global): (r: Result<ErrorReporter>)
    ensures g.instance.None? ==> r == Failure(NotInitialized)
    ensures g.instance.Some? ==> r == Success(g.instance.value)
  {
    match g.instance
    case None => Failure(NotInitialized)
    case Some(reporter) => Success(reporter)
  }

  /** `reportError(error, source)`: reports through the global instance, and
      does nothing when there is none. */
  function ReportError(g: Global, v: Reportable, source: Option<string>, now: string): (r: Option<ErrorReport>)
    ensures g.instance.None? ==> r == None
    ensures g.instance.Some? ==> r == Report(g.instance.value, v, source, now)
  {
    match g.instance
    case None => None
    case Some(reporter) => Report(reporter, v, source, now)
  }

  /** The getter sees the most recent initialisation, whatever came before. */
  lemma GetSeesLatestInit(g: Global, first: ReporterConfig, second: ReporterConfig, nodeEnv: Option<string>)
    ensures var afterFirst := InitErrorReporter(g, first, nodeEnv).0;
      var r := InitErrorReporter(afterFirst, second, nodeEnv);
      GetErrorReporter(r.0) == Success(r.1)
      && GetErrorReporter(r.0).value.settings == Resolve(second, nodeEnv)
  {
  }

  /** Once initialised, the helper posts for every input exactly when the
      resolved settings enable it: never with `enabled: false`, never outside
      development without an explicit `enabled`, and otherwise the value
      normalised with the resolved stack limit. */
  lemma ReportPostsOnlyWhenEnabled(g: Global, config: ReporterConfig, nodeEnv: Option<string>,
                                   v: Reportable, source: Option<string>, now: string)
    ensures var r := ReportError(InitErrorReporter(g, config, nodeEnv).0, v, source, now);
      && (r.Some? <==> Resolve(config, nodeEnv).enabled)
      && (config.enabled == Some(false) ==> r == None)
      && (config.enabled.None? && nodeEnv != Some("development") ==> r == None)
      && (r.Some? ==> r.value == Normalize(v, source, Resolve(config, nodeEnv).maxStackLength, now))
  {
  }

  /** Before initialisation the getter throws and the helper posts
      nothing. */
  lemma NothingBeforeInit(v: Reportable, source: Option<string>, now: string)
    ensures GetErrorReporter(Uninitialized).Failure?
    ensures ReportError(Uninitialized, v, source, now) == None
  {
  }
}

=== FILE: reports.dfy ===
/** The records that flow through the relay: an error report as sent by an
    instrumented process, and the structured record a stderr parser builds
    from one block of lines. Also the stack truncation both the reporter and
    the remediation client apply. */
module Reports {
  import opened Wrappers
  import opened Text

  /** An error report. `context` is an arbitrary JSON object in the system;
      here it is carried as its `JSON.stringify(context, null, 2)` text, the
      only form in which the core ever looks at it. */
  datatype ErrorReport = ErrorReport(
    message: string,
    stack: Option<string>,
    source: Option<string>,
    timestamp: string,
    context: Option<string>)

  /** What a language parser extracts from one block of stderr lines. */
  datatype ParsedError = ParsedError(
    language: string,
    errorType: string,
    message: string,
    stack: string,
    rawLines: seq<string>)

  /** JavaScript truthiness of an optional string: present and non-empty. */
  predicate Truthy(s: Option<string>) {
    s.Some? && s.value != ""
  }

  const TruncationMarker := "\n... (truncated)"

  /** `s.substring(0, n)`: a negative end counts as 0, a large one as `|s|`. */
  function Prefix(s: string, n: int): (r: string)
    ensures |r| == if n < 0 then 0 else if n > |s| then |s| else n
    ensures r == s[..|r|]
  {
    if n < 0 then "" else if n > |s| then s else s[..n]
  }

  /** A stack is kept whole when it has at most `maxLength` characters;
      otherwise it is cut to its first `maxLength` characters and marked. */
  function TruncateStack(stack: string, maxLength: int): (r: string)
    ensures |stack| <= maxLength ==> r == stack
    ensures |stack| > maxLength ==>
      var keep := if maxLength < 0 then 0 else maxLength;
      |r| == keep + |TruncationMarker| && r[..keep] == stack[..keep]
      && r[keep..] == TruncationMarker
  {
    if |stack| <= maxLength then stack
    else Prefix(stack, maxLength) + TruncationMarker
  }

  /** Truncation never yields more than the limit plus the marker, and what it
      keeps is always a prefix of the original stack. */
  lemma TruncateStackBound(stack: string, maxLength: int)
    requires maxLength >= 0
    ensures |TruncateStack(stack, maxLength)| <= maxLength + |TruncationMarker|
    ensures var r := TruncateStack(stack, maxLength);
      var kept := if |stack| <= maxLength then |stack| else maxLength;
      kept <= |r| && r[..kept] == stack[..kept]
  {
  }
}

=== FILE: store.dfy ===
/** The demo backend's in-memory todo store: a map from id to todo that
    remembers insertion order, and a counter that numbers new todos from
    1. The clock reading a new todo records is a parameter. */
module TodoStore {
  import opened Wrappers
  import opened Text

  datatype Todo = Todo(id: string, title: string, completed: bool, createdAt: string)

  /** A partial todo: `None` is a field the update does not mention. */
  datatype TodoUpdate = TodoUpdate(
    id: Option<string>,
    title: Option<string>,
    completed: Option<bool>,
    createdAt: Option<string>)

  /** The map's entries, with the order in which their keys were first
      inserted, and the next number to hand out. */
  datatype Store = Store(todos: map<string, Todo>, order: seq<string>, idCounter: nat)

  predicate Distinct(xs: seq<string>) {
    forall i, j | 0 <= i < j < |xs| :: xs[i] != xs[j]
  }

  /** Every key is listed once in `order`, and every key is the decimal
      form of a number already handed out. */
  predicate Valid(s: Store) {
    && s.idCounter >= 1
    && Distinct(s.order)
    && (forall i | 0 <= i < |s.order| :: s.order[i] in s.todos)
    && (forall id | id in s.todos :: id in s.order)
    && (forall id | id in s.todos :: exists j | 1 <= j < s.idCounter :: id == DecimalString(j))
  }

  function Empty(): (s: Store)
    ensures Valid(s) && s.todos == map[] && s.idCounter == 1
  {
    Store(map[], [], 1)
  }

  /** The values of the listed keys that are present, in list order. */
  function Values(order: seq<string>, todos: map<string, Todo>): (r: seq<Todo>)
    ensures |r| <= |order|
    ensures forall t | t in r :: t in todos.Values
    ensures (forall i | 0 <= i < |order| :: order[i] in todos) ==>
      |r| == |order| && forall i | 0 <= i < |order| :: r[i] == todos[order[i]]
  {
    if |order| == 0 then []
    else
      var rest := Values(order[1..], todos);
      if order[0] in todos then [todos[order[0]]] + rest else rest
  }

  /** `findAll()`: the stored todos in insertion order. */
  function FindAll(s: Store): (r: seq<Todo>)
    ensures forall t | t in r :: t in s.todos.Values
  {
    Values(s.order, s.todos)
  }

  /** `findById(id)`. */
  function FindById(s: Store, id: string): (r: Option<Todo>)
    ensures r.Some? <==> id in s.todos
    ensures r.Some? ==> r.value == s.todos[id]
  {
    if id in s.todos then Some(s.todos[id]) else None
  }

  /** `create(title)`: the counter's decimal form becomes the id, and the
      counter moves on. A new key goes to the end of the insertion order. */
  function Create(s: Store, title: string, now: string): (r: (Store, Todo))
    ensures r.1 == Todo(DecimalString(s.idCounter), title, false, now)
    ensures r.0.idCounter == s.idCounter + 1
    ensures r.0.todos == s.todos[r.1.id := r.1]
    ensures r.1.id !in s.todos ==> r.0.order == s.order + [r.1.id]
  {
    var id := DecimalString(s.idCounter);
    var todo := Todo(id, title, false, now);
    (Store(s.todos[id := todo], if id in s.todos then s.order else s.order + [id], s.idCounter + 1), todo)
  }

  /** The spread `{ ...todo, ...updates }`: mentioned fields override. */
  function Merge(t: Todo, u: TodoUpdate): (r: Todo)
    ensures r.id == u.id.GetOr(t.id) && r.title == u.title.GetOr(t.title)
    ensures r.completed == u.completed.GetOr(t.completed) && r.createdAt == u.createdAt.GetOr(t.createdAt)
  {
    Todo(u.id.GetOr(t.id), u.title.GetOr(t.title), u.completed.GetOr(t.completed), u.createdAt.GetOr(t.createdAt))
  }

  /** `update(id, updates)`: nothing for an absent id; otherwise the merge
      is stored under the same key, which keeps its place. */
  function Update(s: Store, id: string, u: TodoUpdate): (r: (Store, Option<Todo>))
    ensures id !in s.todos ==> r == (s, None)
    ensures id in s.todos ==>
      && r.1 == Some(Merge(s.todos[id], u))
      && r.0 == s.(todos := s.todos[id := r.1.value])
  {
    if id !in s.todos then (s, None)
    else
      var updated := Merge(s.todos[id], u);
      (s.(todos := s.todos[id := updated]), Some(updated))
  }

  /** Removes the first occurrence of `x`. */
  function Without(xs: seq<string>, x: string): (r: seq<string>)
    ensures |r| <= |xs|
    ensures forall y | y in r :: y in xs
    ensures forall y | y in xs && y != x :: y in r
  {
    if |xs| == 0 then []
    else if xs[0] == x then xs[1..]
    else [xs[0]] + Without(xs[1..], x)
  }

  /** `delete(id)`: whether the id was present; afterwards it is not. */
  function Delete(s: Store, id: string): (r: (Store, bool))
    ensures r.1 <==> id in s.todos
    ensures r.0.todos == s.todos - {id}
    ensures r.0.idCounter == s.idCounter
  {
    if id in s.todos then (s.(todos := s.todos - {id}, order := Without(s.order, id)), true)
    else (s, false)
  }

  // ---------------------------------------------------------------- properties

  /** The next id is not in use yet. */
  lemma NextIdIsFresh(s: Store)
    requires Valid(s)
    ensures DecimalString(s.idCounter) !in s.todos
  {
    if DecimalString(s.idCounter) in s.todos {
      var j :| 1 <= j < s.idCounter && DecimalString(s.idCounter) == DecimalString(j);
      DecimalInjective(j, s.idCounter);
    }
  }

  lemma CreateValid(s: Store, title: string, now: string)
    requires Valid(s)
    ensures Valid(Create(s, title, now).0)
  {
    NextIdIsFresh(s);
    var r := Create(s, title, now).0;
    var id := DecimalString(s.idCounter);
    forall k | k in r.todos
      ensures exists j | 1 <= j < r.idCounter :: k == DecimalString(j)
    {
      if k == id {
        assert 1 <= s.idCounter < r.idCounter;
      } else {
        var j :| 1 <= j < s.idCounter && k == DecimalString(j);
        assert 1 <= j < r.idCounter;
      }
    }
    assert r.order == s.order + [id];
  }

  lemma UpdateValid(s: Store, id: string, u: TodoUpdate)
    requires Valid(s)
    ensures Valid(Update(s, id, u).0)
  {
  }

  /** Removing an id from a list without repeats leaves no trace of it. */
  lemma {:induction false} WithoutDistinct(xs: seq<string>, x: string)
    requires Distinct(xs)
    ensures Distinct(Without(xs, x))
    ensures x !in Without(xs, x)
    decreases |xs|
  {
    if |xs| > 0 {
      DistinctTail(xs);
      if xs[0] != x {
        WithoutDistinct(xs[1..], x);
        DistinctCons(xs[0], Without(xs[1..], x));
      }
    }
  }

  lemma DistinctTail(xs: seq<string>)
    requires Distinct(xs) && |xs| > 0
    ensures Distinct(xs[1..]) && xs[0] !in xs[1..]
  {
    forall i, j | 0 <= i < j < |xs[1..]|
      ensures xs[1..][i] != xs[1..][j]
    {
      assert xs[1..][i] == xs[i + 1] && xs[1..][j] == xs[j + 1];
    }
    forall k | 0 <= k < |xs[1..]|
      ensures xs[1..][k] != xs[0]
    {
      assert xs[1..][k] == xs[k + 1];
    }
  }

  lemma DistinctCons(a: string, rest: seq<string>)
    requires Distinct(rest) && a !in rest
    ensures Distinct([a] + rest)
  {
    var xs := [a] + rest;
    forall i, j | 0 <= i < j < |xs|
      ensures xs[i] != xs[j]
    {
      assert xs[j] == rest[j - 1];
      if i > 0 {
        assert xs[i] == rest[i - 1];
      }
    }
  }

  lemma DeleteValid(s: Store, id: string)
    requires Valid(s)
    ensures Valid(Delete(s, id).0)
  {
    WithoutDistinct(s.order, id);
    var r := Delete(s, id).0;
    forall i | 0 <= i < |r.order|
      ensures r.order[i] in r.todos
    {
      assert r.order[i] in r.order;
    }
  }

  /** Successive creations hand out `"1"`, `"2"`, … and never the same id
      twice. */
  lemma CreatedIdsAreDistinct(s: Store, a: string, b: string, t1: string, t2: string)
    ensures var first := Create(s, a, t1);
      var second := Create(first.0, b, t2);
      second.1.id == DecimalString(s.idCounter + 1) && first.1.id != second.1.id
  {
    DecimalInjective(s.idCounter, s.idCounter + 1);
  }

  lemma FirstIdsAreOneAndTwo(a: string, b: string, t1: string, t2: string)
    ensures var first := Create(Empty(), a, t1);
      first.1.id == "1" && Create(first.0, b, t2).1.id == "2"
  {
  }

  /** A created todo is found under its id, not completed, with its title. */
  lemma CreatedIsFound(s: Store, title: string, now: string)
    ensures var r := Create(s, title, now);
      FindById(r.0, r.1.id) == Some(Todo(r.1.id, title, false, now))
  {
  }

  /** A valid store lists each stored todo once, in insertion order. */
  lemma FindAllListsEveryTodo(s: Store)
    requires Valid(s)
    ensures |FindAll(s)| == |s.todos|
    ensures forall id | id in s.todos :: s.todos[id] in FindAll(s)
  {
    KeysAreOrder(s);
    forall id | id in s.todos
      ensures s.todos[id] in FindAll(s)
    {
      var i :| 0 <= i < |s.order| && s.order[i] == id;
      assert FindAll(s)[i] == s.todos[id];
    }
  }

  lemma KeysAreOrder(s: Store)
    requires Valid(s)
    ensures |s.todos| == |s.order|
  {
    var keys := set i | 0 <= i < |s.order| :: s.order[i];
    assert keys == s.todos.Keys;
    DistinctCard(s.order);
  }

  lemma {:induction false} DistinctCard(xs: seq<string>)
    requires Distinct(xs)
    ensures |set i | 0 <= i < |xs| :: xs[i]| == |xs|
    decreases |xs|
  {
    if |xs| > 0 {
      var tail := xs[1..];
      DistinctCard(tail);
      var all := set i | 0 <= i < |xs| :: xs[i];
      var rest := set i | 0 <= i < |tail| :: tail[i];
      assert all == rest + {xs[0]} by {
        forall y | y in all ensures y in rest + {xs[0]} {
          var i :| 0 <= i < |xs| && xs[i] == y;
          if i > 0 { assert tail[i - 1] == y; }
        }
        forall y | y in rest ensures y in all {
          var i :| 0 <= i < |tail| && tail[i] == y;
          assert xs[i + 1] == y;
        }
      }
      assert xs[0] !in rest;
    }
  }

  /** Updating an absent id changes nothing. */
  lemma UpdateAbsentChangesNothing(s: Store, id: string, u: TodoUpdate)
    requires id !in s.todos
    ensures Update(s, id, u) == (s, None)
  {
  }

  /** An `id` in the updates changes the stored field, never the key. */
  lemma UpdateKeepsKey(s: Store, id: string, newId: string)
    requires id in s.todos && newId != id
    ensures var r := Update(s, id, TodoUpdate(Some(newId), None, None, None));
      id in r.0.todos && newId !in r.0.todos - s.todos.Keys && r.0.todos[id].id == newId
      && r.0.todos.Keys == s.todos.Keys
  {
  }

  /** An update mentioning no field changes nothing, applying the same
      update twice is applying it once, and an update naming every field
      replaces the todo. */
  lemma MergeLaws(t: Todo, u: TodoUpdate, full: Todo)
    ensures Merge(t, TodoUpdate(None, None, None, None)) == t
    ensures Merge(Merge(t, u), u) == Merge(t, u)
    ensures Merge(t, TodoUpdate(Some(full.id), Some(full.title), Some(full.completed), Some(full.createdAt))) == full
  {
  }

  /** After an update, `findById` gives what the update returned for that
      id, and the same as before for any other id; the listing order is
      kept. */
  lemma UpdateIsSeenByFind(s: Store, id: string, u: TodoUpdate, other: string)
    ensures var r := Update(s, id, u);
      && FindById(r.0, id) == r.1
      && (other != id ==> FindById(r.0, other) == FindById(s, other))
      && r.0.order == s.order && r.0.idCounter == s.idCounter
  {
  }

  /** After a deletion the id is no longer found, and every other id is found
      as before. */
  lemma DeleteIsSeenByFind(s: Store, id: string, other: string)
    ensures var r := Delete(s, id).0;
      && FindById(r, id) == None
      && (other != id ==> FindById(r, other) == FindById(s, other))
  {
  }

  /** Deleting removes only the given id. */
  lemma DeleteTouchesNothingElse(s: Store, id: string, other: string)
    requires other != id && other in s.todos
    ensures var r := Delete(s, id).0;
      other in r.todos && r.todos[other] == s.todos[other] && id !in r.todos
  {
  }
}

=== FILE: text.dfy ===
/** The JavaScript string operations the core relies on: the `\s` class (which
    is also the set `trim()` removes), `\d`, the line terminators `.` refuses,
    `startsWith`, `indexOf`, `trim`, `join` and `String(n)`. */
module Text {
  import opened Wrappers

  /** JavaScript's `\s`: WhiteSpace and LineTerminator code points. */
  predicate IsSpace(c: char) {
    || c == '\t' || c == '\n' || c == '\U{000B}' || c == '\U{000C}' || c == '\r' || c == ' '
    || c == '\U{00A0}' || c == '\U{1680}' || ('\U{2000}' <= c <= '\U{200A}')
    || c == '\U{2028}' || c == '\U{2029}' || c == '\U{202F}' || c == '\U{205F}'
    || c == '\U{3000}' || c == '\U{FEFF}'
  }

  /** The characters a regular-expression `.` does not match. */
  predicate IsLineTerminator(c: char) {
    c == '\n' || c == '\r' || c == '\U{2028}' || c == '\U{2029}'
  }

  /** JavaScript's `\d`. */
  predicate IsDigit(c: char) {
    '0' <= c <= '9'
  }

  predicate AllSpace(s: string) {
    forall i | 0 <= i < |s| :: IsSpace(s[i])
  }

  predicate NoSpace(s: string) {
    forall i | 0 <= i < |s| :: !IsSpace(s[i])
  }

  predicate AllDigits(s: string) {
    forall i | 0 <= i < |s| :: IsDigit(s[i])
  }

  /** `s` could be matched by `.+` (or `.*`). */
  predicate NoLineBreak(s: string) {
    forall i | 0 <= i < |s| :: !IsLineTerminator(s[i])
  }

  predicate AllChar(s: string, c: char) {
    forall i | 0 <= i < |s| :: s[i] == c
  }

  function Repeat(c: char, n: nat): (r: string)
    ensures |r| == n && AllChar(r, c)
  {
    seq(n, _ => c)
  }

  predicate StartsWith(s: string, prefix: string) {
    |prefix| <= |s| && s[..|prefix|] == prefix
  }

  /** `pattern` occurs in `s` at index `i`. */
  predicate OccursAt(s: string, i: int, pattern: string) {
    0 <= i && i + |pattern| <= |s| && s[i..i + |pattern|] == pattern
  }

  /** An occurrence begins with the pattern's first character. */
  lemma OccursAtHead(s: string, i: int, pattern: string)
    requires |pattern| > 0
    ensures OccursAt(s, i, pattern) ==> s[i] == pattern[0]
  {
    if OccursAt(s, i, pattern) {
      assert s[i..i + |pattern|][0] == s[i];
    }
  }

  /** `s.indexOf(pattern, from)`, with `None` for -1. */
  function IndexOfFrom(s: string, pattern: string, from: nat): (r: Option<nat>)
    ensures r.Some? ==> from <= r.value && OccursAt(s, r.value, pattern)
    ensures r.Some? ==> forall j | from <= j < r.value :: !OccursAt(s, j, pattern)
    ensures r.None? ==> forall j | from <= j <= |s| :: !OccursAt(s, j, pattern)
    decreases |s| - from
  {
    if from + |pattern| > |s| then None
    else if s[from..from + |pattern|] == pattern then Some(from)
    else IndexOfFrom(s, pattern, from + 1)
  }

  /** `s.indexOf(pattern)`: the first occurrence. */
  function IndexOf(s: string, pattern: string): (r: Option<nat>)
    ensures r.Some? ==> OccursAt(s, r.value, pattern)
    ensures r.Some? ==> forall j | 0 <= j < r.value :: !OccursAt(s, j, pattern)
    ensures r.None? ==> forall j | 0 <= j <= |s| :: !OccursAt(s, j, pattern)
  {
    IndexOfFrom(s, pattern, 0)
  }

  /** The end of the digit run starting at `i` (a greedy `\d*`). */
  function DigitsEnd(s: string, i: nat): (j: nat)
    requires i <= |s|
    ensures i <= j <= |s| && AllDigits(s[i..j])
    ensures j == |s| || !IsDigit(s[j])
    decreases |s| - i
  {
    if i < |s| && IsDigit(s[i]) then
      var j := DigitsEnd(s, i + 1);
      assert s[i..j] == [s[i]] + s[i + 1..j];
      j
    else i
  }

  /** The end of the run of non-terminator characters starting at `i`
      (a greedy `.*`). */
  function LineEnd(s: string, i: nat): (j: nat)
    requires i <= |s|
    ensures i <= j <= |s| && NoLineBreak(s[i..j])
    ensures j == |s| || IsLineTerminator(s[j])
    decreases |s| - i
  {
    if i < |s| && !IsLineTerminator(s[i]) then
      var j := LineEnd(s, i + 1);
      assert s[i..j] == [s[i]] + s[i + 1..j];
      j
    else i
  }

  /** The end of the run of `c` characters starting at `i` (a greedy `c*`). */
  function CharRunEnd(s: string, i: nat, c: char): (j: nat)
    requires i <= |s|
    ensures i <= j <= |s| && AllChar(s[i..j], c)
    ensures j == |s| || s[j] != c
    decreases |s| - i
  {
    if i < |s| && s[i] == c then
      var j := CharRunEnd(s, i + 1, c);
      assert s[i..j] == [s[i]] + s[i + 1..j];
      j
    else i
  }

  /** Where `trim()` starts cutting: the first non-space index. */
  function TrimStartIndex(s: string, i: nat): (j: nat)
    requires i <= |s|
    ensures i <= j <= |s| && AllSpace(s[i..j])
    ensures j == |s| || !IsSpace(s[j])
    decreases |s| - i
  {
    if i < |s| && IsSpace(s[i]) then
      var j := TrimStartIndex(s, i + 1);
      assert s[i..j] == [s[i]] + s[i + 1..j];
      j
    else i
  }

  /** Where `trim()` stops: one past the last non-space index at or after `lo`. */
  function TrimEndIndex(s: string, lo: nat, hi: nat): (j: nat)
    requires lo <= hi <= |s|
    ensures lo <= j <= hi && AllSpace(s[j..hi])
    ensures j == lo || !IsSpace(s[j - 1])
    decreases hi
  {
    if hi > lo && IsSpace(s[hi - 1]) then
      var j := TrimEndIndex(s, lo, hi - 1);
      forall k | 0 <= k < hi - j
        ensures IsSpace(s[j..hi][k])
      {
        if k < hi - 1 - j {
          assert s[j..hi][k] == s[j..hi - 1][k];
        }
      }
      j
    else hi
  }

  /** `s.trim()`. */
  function Trim(s: string): (r: string)
    ensures |r| <= |s|
    ensures |r| == 0 || (!IsSpace(r[0]) && !IsSpace(r[|r| - 1]))
    ensures r == "" <==> AllSpace(s)
  {
    var lo := TrimStartIndex(s, 0);
    var hi := TrimEndIndex(s, lo, |s|);
    assert lo < hi ==> !IsSpace(s[lo]);
    assert AllSpace(s) ==> lo == |s|;
    assert lo == hi ==> s == s[..lo] + s[lo..];
    s[lo..hi]
  }

  /** A string with no space at either end is its own trim. */
  lemma TrimOfTrimmed(s: string)
    requires |s| == 0 || (!IsSpace(s[0]) && !IsSpace(s[|s| - 1]))
    ensures Trim(s) == s
  {
  }

  /** `parts.join(sep)`. */
  function Join(parts: seq<string>, sep: string): string
  {
    if |parts| == 0 then ""
    else if |parts| == 1 then parts[0]
    else parts[0] + sep + Join(parts[1..], sep)
  }

  function DigitChar(d: nat): (c: char)
    requires d < 10
    ensures IsDigit(c)
  {
    "0123456789"[d]
  }

  function DigitValue(c: char): (d: nat)
    requires IsDigit(c)
    ensures d < 10 && DigitChar(d) == c
  {
    (c as int - '0' as int) as nat
  }

  /** `String(n)` for a natural number: decimal digits, no leading zero. */
  function DecimalString(n: nat): (r: string)
    ensures |r| >= 1 && AllDigits(r)
    ensures n >= 10 ==> |r| >= 2
    ensures |r| >= 2 ==> r[0] != '0'
  {
    if n < 10 then [DigitChar(n)]
    else DecimalString(n / 10) + [DigitChar(n % 10)]
  }

  /** Reads a run of decimal digits back as a number. */
  function ParseDecimal(s: string): nat
    requires AllDigits(s)
  {
    if |s| == 0 then 0
    else ParseDecimal(s[..|s| - 1]) * 10 + DigitValue(s[|s| - 1])
  }

  lemma {:induction false} DecimalRoundTrip(n: nat)
    ensures ParseDecimal(DecimalString(n)) == n
  {
    var s := DecimalString(n);
    if n >= 10 {
      assert s[..|s| - 1] == DecimalString(n / 10);
      DecimalRoundTrip(n / 10);
    }
  }

  /** Distinct numbers print as distinct strings. */
  lemma DecimalInjective(m: nat, n: nat)
    requires m != n
    ensures DecimalString(m) != DecimalString(n)
  {
    DecimalRoundTrip(m);
    DecimalRoundTrip(n);
  }
}

=== FILE: wrappers.dfy ===
/** Optional values and fallible results, standing in for JavaScript's
    `undefined` and for thrown errors. */
module Wrappers {

  /** `None` is JavaScript's `undefined` (or an absent key). */
  datatype Option<+T> = None | Some(value: T) {

    /** The wrapped value, or `default` when absent (JavaScript's `??`). */
    function GetOr(default: T): T {
      match this
      case Some(v) => v
      case None => default
    }
  }

  /** `Failure` is a thrown error carrying its message. */
  datatype Result<+R> = Success(value: R) | Failure(error: string)
}
